=== FILE: README.md ===
# Intersection simulation and cat-runner game: a Dafny model

This project models the state logic of two browser programs and proves properties of it.

- **The traffic intersection simulation (`script.js`).**
  - The signal controller cycles north-south green, its yellow, east-west green and its yellow. It inserts an optional pedestrian walk phase after either yellow while a crossing request is pending.
  - The four lights are derived from the phase.
  - The pedestrian request set fills from button presses.
  - Vehicles spawn at a limited rate, stop while their light is not green, and drive on. They leave past the exit radius, which feeds the passed-vehicles counter.
  - Left-turners are meant to yield to opposing traffic and then turn once inside the centre box. As written, no spawned vehicle ever gets strictly inside that box, so none of them scans or turns (see Findings).
  - Batches of pedestrians walk across the road when the walk phase starts.
  - One animation frame runs the phase update, a spawn, the vehicle sweep and the pedestrian sweep, in that order.
- **The arcade game (`game.js`).**
  - The `GameState` ledger holds coins, the high score and the saved garden decorations.
  - The endless runner contributes its lane rule, speed schedule, coin value and game-over hand-over.
  - The garden screen handles the shop selection, the click that pays for and places a decoration, selection and deletion of placed decorations, and loading from the saved list.
  - The decoration catalog supports lookup by id.
  - `createItemMesh` classifies each id into a drawn shape.

Modules, one per file:

- `Wrappers`: `Option`.
- `Signals`: phases, lights, request queue and controller.
- `Vehicles`: spawning, the per-vehicle step and the sweep.
- `Pedestrians`: batches, walking and the sweep.
- `Intersection`: one frame, and runs of frames and button presses.
- `GameState`: the ledger.
- `Runner`: the endless runner.
- `Catalog`: the catalog, lookup and shapes.
- `Garden`: the garden screen.

Modelling choices:

- Time (`Date.now()`) is a parameter `now` in integer milliseconds. One `now` serves a whole frame: both clock reads in `updatePhase` and the one in `spawnVehicle` see the same value.
- Every `Math.random()` draw is a parameter: a real in [0, 1). It is pushed through the source's own formulas, for example `Math.floor(u * 4)` for a direction and `3 + Math.floor(u * 3)` for a batch size.
- Positions and speeds are `real`. The exit test compares squared distance with 35², so no square root is needed.
- A JavaScript `Set` of requested directions is a duplicate-free sequence in insertion order, because the walkers spawn in that order.
- `forEach` with `splice` inside it is modelled index by index, as the engine runs it. After a removal, the element that slides into the freed index is not visited in that frame. This holds for vehicles and walkers alike: a walker that slides into a freed index does not move that frame.
- Garden decorations are found again by object identity (`indexOf`, `===` on meshes). Each placed decoration carries a serial number that stands for that identity.
- The intersection state carries one field the program does not have: `departed`, the list of every vehicle removed so far. The passed-vehicles counter is stated against it.

## Model

| member | source | states |
|---|---|---|
| Signals.Start | script.js:45-48 | The simulation starts in north-south green, entered at the start time, with no pending requests. |
| Signals.LightsFor | script.js:293-338 | North always shows the same light as south, and east the same as west. The two axes are never green together. The walk phase shows four reds. Each axis is green exactly in its own green phase and yellow exactly in its own yellow phase. |
| Signals.GreenIsAxisExclusive | script.js:314-329 | Two crossing directions are never both green. A direction sees green exactly when its own axis's green phase runs. |
| Signals.Advance | script.js:340-389 | Nothing changes until the elapsed time strictly exceeds the phase's duration. A transition changes the phase and restarts the clock at `now`. A green only gives way to its own yellow. A yellow goes to the walk phase if and only if a request is pending, and otherwise to the other axis's green, never back to its own. The walk phase always ends in north-south green with the queue emptied. No other transition touches the queue. |
| Signals.Press | script.js:654-661 | A button press adds the direction to the request set. The set gains nothing else, loses nothing, stays duplicate-free, and the phase and its start time are untouched. |
| Signals.PressIdempotent | script.js:659 | Pressing the same button twice is the same as pressing it once. |
| Signals.AdvancePreservesValid | script.js:352-377 | The controller keeps its queue duplicate-free and runs the walk phase only while a request is pending. |
| Signals.PressPreservesValid | script.js:659 | A button press keeps the same invariant. |
| Signals.CycleWithoutRequests | script.js:346-369 | With no requests, four due transitions run north-south green, its yellow, east-west green and its yellow, and come back to north-south green. |
| Signals.DefaultTimingIsStrictAndDrifts | script.js:5-14 | With the default timings, green entered at 0 ms still shows at 5000 ms and changes at 5001 ms. The yellow is timed from the frame that entered it, so it runs until 7001 ms and changes at 7002 ms. |
| Signals.GreenNeverPreemptedByRequest | script.js:346-363 | A request made during a green never sends that green straight to the walk phase. |
| Vehicles.DirectionOfDraw | script.js:408-409 | The direction draw picks north, south, east and west on the four quarters of [0, 1). |
| Vehicles.Fresh | script.js:413-451 | A new vehicle has neither flag set. Its speed is the truck speed exactly for a truck. It starts 30 units back along its heading and 2 units to the left of it, in right-handed axes with y up. |
| Vehicles.Spawn | script.js:398-454 | Nothing happens until `1000 / spawnRate` ms have passed since the last spawn. Then exactly one vehicle is appended with the drawn direction, class and turn intent, and the spawn time becomes `now`. The new vehicle is the spawn-point vehicle for that direction, 30 units back from the centre on its lane. |
| Vehicles.Straight | script.js:542-557 | Straight motion changes only the position. |
| Vehicles.StraightAlongHeading | script.js:542-557 | A straight move advances by exactly the speed along the heading and keeps the offset from it. |
| Vehicles.Turn | script.js:516-540 | A turning move changes only the position. |
| Vehicles.TurnVeers | script.js:516-540 | A turning move advances by 0.4 of the speed along the heading and shifts by 0.8 of it sideways. The shift is to the left of the heading for north and south, and to the right for east and west. |
| Vehicles.StepVehicle | script.js:496 | The source's step. The scan needs the vehicle strictly inside the centre box of half-width 2, so it never runs for a vehicle 2 units to the left of its heading. |
| Vehicles.StepWithBox | script.js:457-558 | The step with either centre-box test: the source's open box or the corrected closed one. The crossed flag becomes set exactly when the vehicle is past the centre, including on a frame where it stops. The opposing-traffic scan runs exactly when an unheld left-turner not yet waiting is inside the centre box, and it sets the waiting flag. The vehicle yields exactly when the scan finds opposing traffic. A held or yielding vehicle keeps its position. Any other vehicle turns once it is waiting and otherwise goes straight. Direction, class, turn intent and speed never change. |
| Vehicles.Others | script.js:499-500 | The scan's "every other vehicle" is the array without the vehicle's own index. |
| Vehicles.VisitAt | script.js:457-571 | Visiting index `k` removes the vehicle exactly when it did not yield and ends its move outside the exit radius. The removed vehicle is the moved one, and it is spliced out of the array. Otherwise the moved vehicle replaces it in place. |
| Vehicles.VisitKeepsPrefix | script.js:562-564 | A visit loses no vehicle and keeps every vehicle before index `k`. Whatever it removes is outside the exit radius. |
| Vehicles.VisitKeepsValid | script.js:494-513 | A visit never sets the waiting flag on a vehicle that is not turning left. |
| Vehicles.SweepKeepsPrefix | script.js:457-571 | A sweep from index `k` loses no vehicle and leaves the vehicles before `k` as they were. |
| Vehicles.SweepCountsExits | script.js:561-569 | Every vehicle a sweep removes was outside the exit radius. The counter rises by exactly the number of removed vehicles that had crossed. |
| Vehicles.SweepKeepsValid | script.js:494-513 | A sweep keeps the waiting flag confined to left-turners, in both the vehicles kept and those removed. |
| Vehicles.UpdateVehicles | script.js:456-571 | After one sweep, kept and removed vehicles together number as many as before. Every removed vehicle was outside the exit radius. The counter rises by one for each removed vehicle that had crossed and for no other. Validity is kept. |
| Vehicles.RemovalSkipsNext | script.js:564 | When the vehicle at index `k` is removed, the vehicle that was behind it ends the frame at index `k` exactly as it was: it is not visited. |
| Vehicles.SkippedVehicleStaysForATick | script.js:562-564 | Concrete case: of two crossed north-bound vehicles that are both already far out, the first is removed and counted, and the second stays for another frame. |
| Vehicles.FlagsStaySet | script.js:463-513 | Under either centre-box test and over any run of frames, the crossed and waiting flags never go from set to unset. A waiting vehicle never scans again. |
| Vehicles.ScanAtMostOnce | script.js:496-513 | Under either centre-box test, the opposing-traffic scan runs at most once in a vehicle's life. |
| Vehicles.DriveConcat | script.js:687-693 | Driving through two runs of frames is driving through the first and then the second, and the scans add up. |
| Vehicles.YieldLastsOneTick | script.js:496-516 | After a yield, the next visit neither scans nor yields, whatever the traffic. Unless the light holds the vehicle, it starts to turn. |
| Vehicles.FreshVehicleHeldBeforeGreen | script.js:463-491 | A freshly spawned vehicle does not move while its light is not green: the stop test already holds at the spawn point. |
| Vehicles.LaneLineNeverScans | script.js:496 | A vehicle 2 units to the left of its heading and not yet waiting never scans under the source's test, whatever the lights and traffic. It stays on that line and never starts a turn. |
| Vehicles.SpawnedTurnersNeverTurn | script.js:435-516 | Every spawned vehicle, left-turners included, never scans and never starts its turn under the source's test. |
| Vehicles.SpawnNeverTurns | script.js:398-516 | The vehicle a due spawn appends, whatever was drawn, never scans and never waits to turn on any run under the source's test. |
| Vehicles.StraightRun | script.js:542-557 | On a clear green, a north-bound straight vehicle moves by its speed on every frame, under either centre-box test. |
| Vehicles.ClearGreenStep | script.js:542-557 | On a clear green, a north-bound vehicle not yet waiting and short of the centre box makes one straight move. |
| Vehicles.ApproachRun | script.js:542-557 | On a clear green, a north-bound vehicle not yet waiting that ends its run no nearer the centre than the box's edge moves straight by its speed each frame. Nothing else changes and it never scans. |
| Vehicles.CorrectedBoxTurnerScans | script.js:496-513 | With the box's edge admitted, a north-bound left-turner on its lane that reaches the edge on a clear green scans on its next visit and starts waiting to turn. Under the source's test the same run has no scan. |
| Vehicles.FreshTurnerReachesBoxEdge | script.js:5-14 | The default north-bound left-turner reaches the box's edge at z = 2 after 560 moves. |
| Vehicles.NorthCarExitsOnTick1299 | script.js:432-562 | A default north-bound car that is never stopped is still inside the exit radius after 1298 moves and outside it after 1299. |
| Pedestrians.BatchSize | script.js:577 | A batch holds three to five walkers. |
| Pedestrians.WalkerSpeed | script.js:583 | A walker's speed lies in [0.01, 0.02). |
| Pedestrians.Walker | script.js:579-613 | A new walker has progress 0 and its drawn speed. It starts on its kerb and ends at the mirror image across the centre, standing at its offset. |
| Pedestrians.Batch | script.js:576-616 | A batch holds the drawn number of walkers for that direction. All start at progress 0 and are strictly spread out across the road. |
| Pedestrians.Batches | script.js:573-617 | The batches follow queue order, with between 3 and 5 walkers per queued direction. Every walker is on a crossing of a queued direction, at progress 0. |
| Pedestrians.BatchesConcat | script.js:573-576 | The batches for a queue split in two are those of the first part followed by those of the second. |
| Pedestrians.BatchesSingle | script.js:576-616 | A queue of one direction gets exactly that direction's batch. |
| Pedestrians.CountDirUniform | script.js:576-616 | A run of walkers that all cross one way counts in full for that direction and not at all for any other. |
| Pedestrians.BatchesPerDirection | script.js:573-617 | With each direction queued at most once, a queued direction gets exactly its drawn number of walkers, three to five, and an unqueued direction gets none. |
| Pedestrians.BatchesCount | script.js:573-617 | The same, for every direction at once. |
| Pedestrians.Spawn | script.js:573-620 | The walkers already on the road stay first, and the new ones follow. |
| Pedestrians.Walk | script.js:624-628 | Progress grows by exactly the speed. The walker then stands at the linear interpolation of its two ends at that progress. |
| Pedestrians.VisitAt | script.js:622-634 | A walker is spliced out exactly when its progress reaches 1. Otherwise its moved state replaces it. |
| Pedestrians.SweepFrom | script.js:622-634 | A sweep removes walkers and never adds any, and leaves those before the start index alone. Every walker left is still mid-crossing. |
| Pedestrians.SweepWalksAll | script.js:622-634 | A sweep in which no walker arrives removes nobody and moves every walker from the start index on by one frame. |
| Pedestrians.SweepRemovesOnlyArrivals | script.js:622-634 | A sweep removes no more walkers than there are walkers whose own tick brings them to progress 1; a walker skipped after a removal stays. |
| Pedestrians.UpdatePedestrians | script.js:622-634 | A frame never adds walkers and keeps every walker mid-crossing. It removes at most as many walkers as arrive at the far kerb in that frame. While no walker arrives, none leaves and each moves on by one frame. |
| Pedestrians.WalkNProgress | script.js:624 | After `n` frames a walker's progress has grown by `n` times its speed. |
| Pedestrians.WalkerArrivesWithin100Ticks | script.js:622-633 | Every walker arrives within 100 of its own frames. |
| Intersection.Init | script.js:43-49 | The simulation starts in north-south green with empty roads and a zero counter. |
| Intersection.UpdatePhase | script.js:340-389 | The controller advances. Walkers appear only when the walk phase has just been entered, after those already on the road. Each requested direction then gets exactly its drawn batch of three to five walkers, and no other direction gets any. Vehicles and the counter are untouched. |
| Intersection.Tick | script.js:687-693 | One frame advances the controller. The record of departed vehicles only grows. The counter rises by the number of newly departed vehicles that had crossed. Each of them was outside the exit radius. |
| Intersection.TickPreservesValid | script.js:687-693 | A frame keeps the invariant: the controller is valid, only left-turners wait, every walker is mid-crossing, and the counter equals the number of departed vehicles that had crossed. |
| Intersection.ApplyPreservesValid | script.js:687-693 | A frame or a button press keeps the invariant and never lowers the counter. |
| Intersection.RunPreservesValid | script.js:687-693 | Over any interleaving of frames and button presses, the invariant holds and the counter never falls. It always equals the number of removed vehicles that had crossed. |
| Intersection.InitValid | script.js:43-49 | The starting state satisfies the invariant. |
| GameState.AddCoins | game.js:30-33 | The balance grows by the amount. Nothing else changes. |
| GameState.SpendCoins | game.js:35-42 | A spend succeeds if and only if the balance covers the amount. On success it takes exactly that amount. On refusal nothing changes. A non-negative balance never goes negative. |
| GameState.SpendUndoesAdd | game.js:30-42 | Spending what was just added succeeds and gives back the ledger as it was. |
| GameState.UpdateHighScore | game.js:44-49 | The high score becomes the larger of the old one and the new score. It never falls. |
| GameState.UpdateHighScoreIdempotent | game.js:44-49 | Recording the same score twice changes nothing the second time. |
| GameState.AddGardenItem | game.js:51-54 | The entry is appended at the end, and the old entries are kept in order. |
| GameState.SpliceStart | game.js:56-59 | `splice` starts inside the array. An in-range index starts there. A negative index counts from the end. |
| GameState.RemoveGardenItem | game.js:56-59 | An in-range index removes exactly that entry and keeps the others in order. An index at or past the end removes nothing. Coins and high score are untouched. |
| GameState.RemoveUndoesAdd | game.js:51-59 | Removing the entry just added restores the ledger. |
| GameState.Reset | game.js:61-66 | Coins and high score become 0 and the garden list is emptied. |
| Runner.Start | game.js:513-531 | A run starts running and unpaused, at distance 0, speed 0.1, no coins, in the centre lane. |
| Runner.Pause | game.js:533-536 | Pausing sets the paused flag and changes nothing else. |
| Runner.Resume | game.js:538-541 | Resuming clears the paused flag and changes nothing else. |
| Runner.ResumeUndoesPause | game.js:533-541 | Resuming a run that was playing when paused gives it back unchanged. |
| Runner.KeyDown | game.js:156-169 | Left moves the lane down by one, and right moves it up by one. Each does so exactly while the run is running, unpaused and not already in the outermost lane. The lane stays in {-1, 0, 1}, and the player stands at `lane * 2.5`. |
| Runner.SpeedAt | game.js:582 | The speed never exceeds 0.3 and is at least 0.1 for a non-negative distance. Below distance 2000 it is 0.1 plus 0.0001 per unit of distance. It is 0.3 exactly from distance 2000 on. |
| Runner.SpeedAtMonotone | game.js:582 | The speed never drops as the distance grows. |
| Runner.CurrentSpeed | game.js:583 | The slow power-up halves the speed, and its absence leaves it unchanged. |
| Runner.Frame | game.js:574-586 | A paused or stopped run does not change. Otherwise the speed is set by the schedule and the distance grows by ten times the current speed. |
| Runner.FramesKeepValid | game.js:574-586 | Over any number of frames and power-ups, the speed stays within [0.1, 0.3], the distance never falls, and the lane stays valid. |
| Runner.PauseFreezes | game.js:574-579 | A paused run stays as it is through any number of frames, and the arrow keys do not move it. |
| Runner.CoinValue | game.js:486 | A coin is worth 2 exactly while the double power-up runs, and 1 otherwise. |
| Runner.CollectCoin | game.js:485-491 | A pickup adds the coin's value and changes nothing else. |
| Runner.GameOver | game.js:554-564 | The run stops. Its coins go to the balance. The high score becomes the larger of the old one and the floor of the distance. The garden is untouched. |
| Catalog.FindFrom | game.js:1079 | `find` returns an item with that id from the category, and finds nothing exactly when no item there has it. |
| Catalog.FindFromFirst | game.js:1079 | `find` returns the first item with the id: when an item matches and none before it does, that item is returned. |
| Catalog.LookupFromSpec | game.js:1076-1081 | The category loop finds a catalog item with the id, or finds nothing exactly when no remaining category holds it. |
| Catalog.LookupSpec | game.js:1076-1081 | Lookup by id returns a catalog item with that id. It returns nothing exactly when no catalog item has that id. |
| Catalog.LookupFindsCatalogItems | game.js:70-106 | Every catalog item is found by its own id: no earlier item shadows it. |
| Catalog.ShapeOf | game.js:854-940 | An id is drawn as a tree exactly when it contains "tree" or is palm, pine, deciduous or cherry. The tree test wins over the flower test. A flower is drawn exactly for a non-tree id containing "flower", "rose" or "tulip". Then come bench, fountain and the default box, each under the failure of the tests before it. |
| Catalog.ContainsSpec | game.js:855-878 | The substring test agrees with its plain meaning: the part occurs in the id at some index. |
| Catalog.PlainIdShape | game.js:854-940 | An id with no t, f or r in it can match none of the substring tests. Its shape is decided by the exact-name tests alone. |
| Catalog.ShapeRose | game.js:879 | "rose" is drawn as a flower. |
| Catalog.ShapeTulip | game.js:879 | "tulip" is drawn as a flower: it does not contain "tree". |
| Catalog.ShapeSunflower | game.js:879 | "sunflower" is drawn as a flower, through its "flower" substring. |
| Catalog.ShapeFountain | game.js:912 | "fountain" fails the tree and flower tests and is drawn as a fountain. |
| Garden.Fresh | game.js:680-698 | A new garden screen has nothing placed and nothing selected. |
| Garden.Shown | game.js:1076-1093 | A saved entry shows the item the catalog lookup returns for its id, at its saved position. It shows nothing when the catalog does not know the id. |
| Garden.ResolveConcat | game.js:1075-1094 | Resolving a concatenation resolves its parts in order. |
| Garden.ResolveAllKnown | game.js:1083 | When the catalog knows every saved id, nothing is dropped. |
| Garden.SavedSlot | game.js:1075-1094 | The `k`-th decoration a saved list shows comes from a known entry, preceded by exactly `k` shown entries. |
| Garden.ResolveRemoveAt | game.js:1075-1094 | Deleting a known saved entry deletes exactly the decoration it showed. |
| Garden.LoadOne | game.js:1075-1094 | One loop turn appends the entry's decoration with a fresh serial when the catalog knows the id, and appends nothing otherwise. |
| Garden.LoadGardenItems | game.js:1074-1095 | Loading keeps what is already placed, first. It appends, in saved order, the decoration of every saved entry whose id the catalog knows, and skips the rest. Serials stay distinct. |
| Garden.Open | game.js:717-770 | The first visit shows exactly the saved decorations. |
| Garden.Reopen | game.js:1167-1173 | A later visit loads the saved list on top of what the last visit left on screen. |
| Garden.ReopenDuplicates | game.js:1167-1173 | Concrete case: after a second visit, a garden with one saved rose lists two placed entries for it, while the saved list holds one. The new scene draws only the second entry, and the item count (game.js:1104) shows 2. |
| Garden.ReopenFixed | game.js:717-770 | Rebuilding from the saved list alone leaves the screen showing exactly the saved decorations. |
| Garden.SelectItem | game.js:832-847 | An unaffordable item is refused. An affordable one becomes the item to place, and nothing is paid yet. |
| Garden.PlaceItem | game.js:1024-1039 | The decoration is appended on screen, and its id and position are appended to the saved list. |
| Garden.PlacePreservesInvariants | game.js:1024-1039 | Placing a catalog item keeps the screen equal to the saved list read back, and keeps serials distinct. |
| Garden.IndexOf | game.js:1064 | `indexOf` returns the first index holding the decoration, or -1 exactly when it is not there. |
| Garden.OnCanvasClick | game.js:990-1022 | A click during a drag does nothing. A placement happens only with an item selected and coins covering its price. It charges exactly the price and clears the selection. A click that places nothing changes neither the ledger nor the screen. The balance never goes negative. Without an item selected, a click only ever selects a decoration that is on screen. |
| Garden.ClickPreservesInvariants | game.js:990-1022 | A click keeps the screen and the saved list in step when items come from the catalog. |
| Garden.SelectThenClickPlaces | game.js:990-1039 | Choosing an affordable item and clicking the ground places it there, charges its price, saves one entry and clears the selection. |
| Garden.RemoveItem | game.js:1063-1072 | As written: a decoration not on screen changes nothing. Otherwise it leaves the screen, the others stay in order, the highlight is dropped, and the saved entry at the same index is spliced out. |
| Garden.RemoveItemAligned | game.js:1063-1072 | Corrected: the same on screen, and coins and high score are untouched. |
| Garden.RemoveItemAlignedPreservesInvariants | game.js:1063-1072 | On a garden whose screen matches its saved list, the corrected removal deletes exactly one saved entry, the one the decoration came from, and the two stay in step. |
| Garden.RemoveUndoesPlace | game.js:1024-1072 | Removing the decoration just placed restores both the screen and the saved list. |
| Garden.RemoveItemCorrectWhenAllKnown | game.js:1063-1083 | When the catalog knows every saved id, the as-written and corrected removals agree. |
| Garden.RemoveItemMisaligns | game.js:1063-1083 | Concrete case: with an unknown id saved ahead of a rose, deleting the rose splices out the unknown entry and leaves the rose saved. |
| Garden.PressDelete | game.js:710-714 | As written: Delete with a highlighted decoration on screen takes it off the screen and splices out the saved entry at its screen index, and drops the highlight. Otherwise nothing changes. |
| Garden.PressDeleteFixed | game.js:710-714 | Corrected: Delete removes the highlighted decoration through the corrected removal. On a garden whose screen matches its saved list, it removes exactly one saved entry and the two stay in step. |
| Garden.DeleteKeyMisaligns | game.js:710-714 | Concrete case: Delete on the rose of `RemoveItemMisaligns` clears the screen but leaves the rose saved. |
| Garden.DeleteKeyFixed | game.js:710-714 | With the corrected removal, the same Delete removes the rose's saved entry and keeps the unknown one. |
| Garden.ResetAll | game.js:1175-1186 | The reset button clears the ledger and the screen, which then agree. A Delete afterwards finds nothing to remove and leaves the garden as it is. |

## Left out

- Everything Three.js does: scene, meshes, materials, lights, camera, orbit controls, rendering and resize handlers. Vehicle headings and rotations, mesh heights and colours are left out for the same reason.
- DOM wiring: sliders, buttons and their highlighting, the stats display, screen switching and the shop panels. The sliders' effect on the configuration is covered by passing the `Config` as a parameter.
- `localStorage` and JSON (`GameState.load`, `save`, and the storage call in `reset`). Only the in-memory ledger is modelled.
- Timers: `requestAnimationFrame`, the `setTimeout` expiry of power-ups and the loading delay. One frame is a function call, and the active power-ups are a parameter.
- `Math.random` and `Date.now`: both become parameters.
- Runner obstacles, the magnet's pull, jump physics and the `Box3` collision tests. A coin pickup is a call to `CollectCoin`, and the collision deciding it is not modelled. Space starts a jump, which does not touch the lane.
- Exact IEEE-754 arithmetic. Positions, speeds and durations are `real`, so no claim is made about rounding in JavaScript doubles. The last step of `NorthCarExitsOnTick1299` in particular is exact arithmetic.
- Garden camera dragging and pointer-to-ground ray casting. The drag flag, the ground point and the decoration under the pointer are parameters of `OnCanvasClick`.
- The preview mesh and highlight colours in `selectItem` and `selectPlacedItem`. Selecting a placed decoration is the `picked` branch of `OnCanvasClick`.
- `Vehicles.UpdateVehicles`: it states the exit rule per visit (in `VisitAt`) and sums it up through the exit counts, but it does not state in one clause which vehicles survive a whole sweep, because the skip after a removal makes that depend on their order.
- `Garden.RemoveItemAligned`: its saved-list guarantee is stated only for a garden whose screen matches the saved list (`RemoveItemAlignedPreservesInvariants`). On any other garden no saved entry corresponds to the decoration.

Where the program's prose description and its code disagree, the model follows the code:

- A yielding left-turner is not re-checked until traffic clears. The waiting flag is set before the scan, so on the next frame the scan does not run and the turn starts (`YieldLastsOneTick`). A yielding vehicle also skips the exit test for that frame.
- The stop test is not a stop line. An uncrossed vehicle stops anywhere on its approach side while its light is not green, including at the spawn point (`FreshVehicleHeldBeforeGreen`). This applies to a left-turner in mid-turn too.
- A north-bound car does not exit after 1300 frames. Its lane runs at x = -2, so it leaves the radius-35 circle on its 1299th move (`NorthCarExitsOnTick1299`).
- The turn does not follow a left-hand curve for every direction. North and south drift to the left of their heading, while east and west drift to the right (`TurnVeers`). The model keeps the arithmetic as written.
- Transitions need the elapsed time to strictly exceed the duration, and the phase clock restarts at the time of the transition, not at the scheduled end, so the cycle drifts (`DefaultTimingIsStrictAndDrifts`).

## Findings

The model of the programs keeps each defect as written. Each corrected member sits beside its as-written counterpart, and the properties the code evidently meant to have are proved about it.

| source | as written | input that shows it | evidently intended | confidence | as-written member | corrected member |
|---|---|---|---|---|---|---|
| game.js:1063-1072 with game.js:1083 | `removeItem` splices the saved list at the decoration's index in `placedItems`, but loading skips saved entries whose id the catalog does not know, so the two indices differ once any entry was skipped | saved list `[gnome at (0,0), rose at (1,1)]`, one rose on screen; deleting the rose removes the gnome entry and the rose stays saved | remove the saved entry the decoration was loaded or placed from | not executed | Garden.RemoveItemMisaligns | Garden.RemoveItemAlignedPreservesInvariants |
| game.js:758 with game.js:1167-1173 | the garden screen object is created once and `init` runs on every visit; `init` builds a new scene but `loadGardenItems` appends the saved list to `placedItems` without clearing it | save one rose, open the garden, go back to the menu, open it again: `placedItems` holds two rose entries and the item count shows 2, while the new scene draws one rose and one is saved | rebuild the placed list from the saved list alone on each visit | not executed | Garden.ReopenDuplicates | Garden.ReopenFixed |
| script.js:496 with script.js:435-447 | the left-turn test asks for `Math.abs(x) < 2 && Math.abs(z) < 2`, but every spawn lane lies exactly 2 units off the centre line and straight motion never leaves it, so no vehicle ever passes the test | a north-bound left-turner spawned at x = -2: Abs(x) is 2 on every frame, so it never scans, never waits and drives straight through | the turn starts once the vehicle reaches the centre box, edge included | not executed | Vehicles.SpawnedTurnersNeverTurn | Vehicles.CorrectedBoxTurnerScans |

=== FILE: catalog.dfy ===
/** The garden decoration catalog (game.js `GardenCatalog`), the lookup by
    id used when saved decorations are loaded, and the shape each id is
    drawn with (`createItemMesh`). Names, icons, colours and sizes are
    display data and are left out. */
module Catalog {
  import opened Wrappers

  datatype Item = Item(id: string, price: nat)

  const Flowers: seq<Item> := [
    Item("rose", 50), Item("tulip", 40), Item("sunflower", 60),
    Item("daisy", 35), Item("hibiscus", 70), Item("blossom", 45)]
  const Trees: seq<Item> := [
    Item("palm", 200), Item("pine", 180), Item("deciduous", 150), Item("cherry", 250)]
  const Decorations: seq<Item> := [
    Item("bench", 100), Item("fountain", 300), Item("lamp", 120), Item("statue", 250)]
  const Bushes: seq<Item> := [Item("bush1", 80), Item("bush2", 100), Item("bush3", 130)]
  const Special: seq<Item> := [Item("rainbow", 500), Item("mushroom", 150), Item("crystal", 400)]
  const Animals: seq<Item> := [Item("butterfly", 90), Item("bird", 110), Item("rabbit", 180)]

  /** The categories in the order the lookup visits them. */
  const Categories: seq<seq<Item>> := [Flowers, Trees, Decorations, Bushes, Special, Animals]

  predicate InCatalog(it: Item) {
    exists c, i :: 0 <= c < |Categories| && 0 <= i < |Categories[c]| && Categories[c][i] == it
  }

  /** `items.find(i => i.id === id)`, scanning from index `k`: the first
      item at or after `k` with that id. */
  function FindFrom(items: seq<Item>, id: string, k: nat): (r: Option<Item>)
    ensures r.Some? ==> r.value.id == id && r.value in items
    ensures r.None? <==> forall j :: k <= j < |items| ==> items[j].id != id
    decreases |items| - k
  {
    if k >= |items| then None
    else if items[k].id == id then Some(items[k])
    else FindFrom(items, id, k + 1)
  }

  /** The item found is the first with that id: when entry `j` matches and
      none between `k` and `j` does, the search returns entry `j`. */
  lemma {:induction false} FindFromFirst(items: seq<Item>, id: string, k: nat, j: nat)
    requires k <= j < |items| && items[j].id == id
    requires forall i :: k <= i < j ==> items[i].id != id
    ensures FindFrom(items, id, k) == Some(items[j])
    decreases j - k
  {
    if k < j {
      FindFromFirst(items, id, k + 1, j);
    }
  }

  /** The category loop of `loadGardenItems` from category `c` on: the first
      category holding the id decides. What it finds is stated apart, in
      `LookupFromSpec`, so that reasoning about saved lists does not have to
      carry the whole catalog along. */
  function LookupFrom(id: string, c: nat): Option<Item>
    decreases |Categories| - c
  {
    if c >= |Categories| then None
    else match FindFrom(Categories[c], id, 0)
      case Some(it) => Some(it)
      case None => LookupFrom(id, c + 1)
  }

  /** A found item is a catalog item with that id; nothing is found only
      when no category from `c` on holds the id. */
  lemma {:induction false} LookupFromSpec(id: string, c: nat)
    ensures LookupFrom(id, c).Some? ==> LookupFrom(id, c).value.id == id && InCatalog(LookupFrom(id, c).value)
    ensures LookupFrom(id, c).None? <==>
              forall k, i :: c <= k < |Categories| && 0 <= i < |Categories[k]| ==> Categories[k][i].id != id
    decreases |Categories| - c
  {
    if c < |Categories| {
      match FindFrom(Categories[c], id, 0)
      case Some(it) =>
        var i :| 0 <= i < |Categories[c]| && Categories[c][i] == it;
      case None =>
        LookupFromSpec(id, c + 1);
    }
  }

  /** The catalog entry with this id, if any. */
  function Lookup(id: string): Option<Item> {
    LookupFrom(id, 0)
  }

  /** A found item is a catalog item with that id; nothing is found only
      when no catalog item has the id. */
  lemma LookupSpec(id: string)
    ensures Lookup(id).Some? ==> Lookup(id).value.id == id && InCatalog(Lookup(id).value)
    ensures Lookup(id).None? <==> forall it :: InCatalog(it) ==> it.id != id
  {
    LookupFromSpec(id, 0);
  }

  /** Every catalog item is found again by its own id: no item is shadowed
      by an earlier one with the same id. */
  lemma LookupFindsCatalogItems(it: Item)
    requires InCatalog(it)
    ensures Lookup(it.id) == Some(it)
  {
    var c, i :| 0 <= c < |Categories| && 0 <= i < |Categories[c]| && Categories[c][i] == it;
    if c == 0 {
      LookupFindsFlowers(i);
    } else if c == 1 {
      LookupFindsTrees(i);
    } else if c == 2 {
      LookupFindsDecorations(i);
    } else if c == 3 {
      LookupFindsBushes(i);
    } else if c == 4 {
      LookupFindsSpecial(i);
    } else {
      LookupFindsAnimals(i);
    }
  }

  lemma LookupFindsFlowers(i: nat)
    requires i < |Flowers|
    ensures Lookup(Flowers[i].id) == Some(Flowers[i])
  {
    if i == 0 {
      LookupRose();
    } else if i == 1 {
      LookupTulip();
    } else if i == 2 {
      LookupSunflower();
    } else if i == 3 {
      LookupDaisy();
    } else if i == 4 {
      LookupHibiscus();
    } else {
      LookupBlossom();
    }
  }

  lemma LookupFindsTrees(i: nat)
    requires i < |Trees|
    ensures Lookup(Trees[i].id) == Some(Trees[i])
  {
    if i == 0 {
      LookupPalm();
    } else if i == 1 {
      LookupPine();
    } else if i == 2 {
      LookupDeciduous();
    } else {
      LookupCherry();
    }
  }

  lemma LookupFindsDecorations(i: nat)
    requires i < |Decorations|
    ensures Lookup(Decorations[i].id) == Some(Decorations[i])
  {
    if i == 0 {
      LookupBench();
    } else if i == 1 {
      LookupFountain();
    } else if i == 2 {
      LookupLamp();
    } else {
      LookupStatue();
    }
  }

  lemma LookupFindsBushes(i: nat)
    requires i < |Bushes|
    ensures Lookup(Bushes[i].id) == Some(Bushes[i])
  {
    if i == 0 {
      LookupBush1();
    } else if i == 1 {
      LookupBush2();
    } else {
      LookupBush3();
    }
  }

  lemma LookupFindsSpecial(i: nat)
    requires i < |Special|
    ensures Lookup(Special[i].id) == Some(Special[i])
  {
    if i == 0 {
      LookupRainbow();
    } else if i == 1 {
      LookupMushroom();
    } else {
      LookupCrystal();
    }
  }

  lemma LookupFindsAnimals(i: nat)
    requires i < |Animals|
    ensures Lookup(Animals[i].id) == Some(Animals[i])
  {
    if i == 0 {
      LookupButterfly();
    } else if i == 1 {
      LookupBird();
    } else {
      LookupRabbit();
    }
  }

  /* One lemma per item keeps each literal evaluation small. */

  lemma LookupRose()
    ensures Lookup("rose") == Some(Item("rose", 50))
  {
    assert FindFrom(Flowers, "rose", 0) == Some(Item("rose", 50));
    assert Categories[0] == Flowers;
  }

  lemma LookupTulip()
    ensures Lookup("tulip") == Some(Item("tulip", 40))
  {
    assert FindFrom(Flowers, "tulip", 0) == Some(Item("tulip", 40));
    assert Categories[0] == Flowers;
  }

  lemma LookupSunflower()
    ensures Lookup("sunflower") == Some(Item("sunflower", 60))
  {
    assert FindFrom(Flowers, "sunflower", 0) == Some(Item("sunflower", 60));
    assert Categories[0] == Flowers;
  }

  lemma LookupDaisy()
    ensures Lookup("daisy") == Some(Item("daisy", 35))
  {
    assert FindFrom(Flowers, "daisy", 0) == Some(Item("daisy", 35));
    assert Categories[0] == Flowers;
  }

  lemma LookupHibiscus()
    ensures Lookup("hibiscus") == Some(Item("hibiscus", 70))
  {
    assert FindFrom(Flowers, "hibiscus", 0) == Some(Item("hibiscus", 70));
    assert Categories[0] == Flowers;
  }

  lemma LookupBlossom()
    ensures Lookup("blossom") == Some(Item("blossom", 45))
  {
    assert FindFrom(Flowers, "blossom", 0) == Some(Item("blossom", 45));
    assert Categories[0] == Flowers;
  }

  lemma LookupPalm()
    ensures Lookup("palm") == Some(Item("palm", 200))
  {
    assert FindFrom(Flowers, "palm", 0) == None;
    assert FindFrom(Trees, "palm", 0) == Some(Item("palm", 200));
    assert Categories[0] == Flowers;
    assert Categories[1] == Trees;
  }

  lemma LookupPine()
    ensures Lookup("pine") == Some(Item("pine", 180))
  {
    assert FindFrom(Flowers, "pine", 0) == None;
    assert FindFrom(Trees, "pine", 0) == Some(Item("pine", 180));
    assert Categories[0] == Flowers;
    assert Categories[1] == Trees;
  }

  lemma LookupDeciduous()
    ensures Lookup("deciduous") == Some(Item("deciduous", 150))
  {
    assert FindFrom(Flowers, "deciduous", 0) == None;
    assert FindFrom(Trees, "deciduous", 0) == Some(Item("deciduous", 150));
    assert Categories[0] == Flowers;
    assert Categories[1] == Trees;
  }

  lemma LookupCherry()
    ensures Lookup("cherry") == Some(Item("cherry", 250))
  {
    assert FindFrom(Flowers, "cherry", 0) == None;
    assert FindFrom(Trees, "cherry", 0) == Some(Item("cherry", 250));
    assert Categories[0] == Flowers;
    assert Categories[1] == Trees;
  }

  lemma LookupBench()
    ensures Lookup("bench") == Some(Item("bench", 100))
  {
    assert FindFrom(Flowers, "bench", 0) == None;
    assert FindFrom(Trees, "bench", 0) == None;
    assert FindFrom(Decorations, "bench", 0) == Some(Item("bench", 100));
    assert Categories[0] == Flowers;
    assert Categories[1] == Trees;
    assert Categories[2] == Decorations;
  }

  lemma LookupFountain()
    ensures Lookup("fountain") == Some(Item("fountain", 300))
  {
    assert FindFrom(Flowers, "fountain", 0) == None;
    assert FindFrom(Trees, "fountain", 0) == None;
    assert FindFrom(Decorations, "fountain", 0) == Some(Item("fountain", 300));
    assert Categories[0] == Flowers;
    assert Categories[1] == Trees;
    assert Categories[2] == Decorations;
  }

  lemma LookupLamp()
    ensures Lookup("lamp") == Some(Item("lamp", 120))
  {
    assert FindFrom(Flowers, "lamp", 0) == None;
    assert FindFrom(Trees, "lamp", 0) == None;
    assert FindFrom(Decorations, "lamp", 0) == Some(Item("lamp", 120));
    assert Categories[0] == Flowers;
    assert Categories[1] == Trees;
    assert Categories[2] == Decorations;
  }

  lemma LookupStatue()
    ensures Lookup("statue") == Some(Item("statue", 250))
  {
    assert FindFrom(Flowers, "statue", 0) == None;
    assert FindFrom(Trees, "statue", 0) == None;
    assert FindFrom(Decorations, "statue", 0) == Some(Item("statue", 250));
    assert Categories[0] == Flowers;
    assert Categories[1] == Trees;
    assert Categories[2] == Decorations;
  }

  lemma LookupBush1()
    ensures Lookup("bush1") == Some(Item("bush1", 80))
  {
    assert FindFrom(Flowers, "bush1", 0) == None;
    assert FindFrom(Trees, "bush1", 0) == None;
    assert FindFrom(Decorations, "bush1", 0) == None;
    assert FindFrom(Bushes, "bush1", 0) == Some(Item("bush1", 80));
    assert Categories[0] == Flowers;
    assert Categories[1] == Trees;
    assert Categories[2] == Decorations;
    assert Categories[3] == Bushes;
  }

  lemma LookupBush2()
    ensures Lookup("bush2") == Some(Item("bush2", 100))
  {
    assert FindFrom(Flowers, "bush2", 0) == None;
    assert FindFrom(Trees, "bush2", 0) == None;
    assert FindFrom(Decorations, "bush2", 0) == None;
    assert FindFrom(Bushes, "bush2", 0) == Some(Item("bush2", 100));
    assert Categories[0] == Flowers;
    assert Categories[1] == Trees;
    assert Categories[2] == Decorations;
    assert Categories[3] == Bushes;
  }

  lemma LookupBush3()
    ensures Lookup("bush3") == Some(Item("bush3", 130))
  {
    assert FindFrom(Flowers, "bush3", 0) == None;
    assert FindFrom(Trees, "bush3", 0) == None;
    assert FindFrom(Decorations, "bush3", 0) == None;
    assert FindFrom(Bushes, "bush3", 0) == Some(Item("bush3", 130));
    assert Categories[0] == Flowers;
    assert Categories[1] == Trees;
    assert Categories[2] == Decorations;
    assert Categories[3] == Bushes;
  }

  lemma LookupRainbow()
    ensures Lookup("rainbow") == Some(Item("rainbow", 500))
  {
    assert FindFrom(Flowers, "rainbow", 0) == None;
    assert FindFrom(Trees, "rainbow", 0) == None;
    assert FindFrom(Decorations, "rainbow", 0) == None;
    assert FindFrom(Bushes, "rainbow", 0) == None;
    assert FindFrom(Special, "rainbow", 0) == Some(Item("rainbow", 500));
    assert Categories[0] == Flowers;
    assert Categories[1] == Trees;
    assert Categories[2] == Decorations;
    assert Categories[3] == Bushes;
    assert Categories[4] == Special;
  }

  lemma LookupMushroom()
    ensures Lookup("mushroom") == Some(Item("mushroom", 150))
  {
    assert FindFrom(Flowers, "mushroom", 0) == None;
    assert FindFrom(Trees, "mushroom", 0) == None;
    assert FindFrom(Decorations, "mushroom", 0) == None;
    assert FindFrom(Bushes, "mushroom", 0) == None;
    assert FindFrom(Special, "mushroom", 0) == Some(Item("mushroom", 150));
    assert Categories[0] == Flowers;
    assert Categories[1] == Trees;
    assert Categories[2] == Decorations;
    assert Categories[3] == Bushes;
    assert Categories[4] == Special;
  }

  lemma LookupCrystal()
    ensures Lookup("crystal") == Some(Item("crystal", 400))
  {
    assert FindFrom(Flowers, "crystal", 0) == None;
    assert FindFrom(Trees, "crystal", 0) == None;
    assert FindFrom(Decorations, "crystal", 0) == None;
    assert FindFrom(Bushes, "crystal", 0) == None;
    assert FindFrom(Special, "crystal", 0) == Some(Item("crystal", 400));
    assert Categories[0] == Flowers;
    assert Categories[1] == Trees;
    assert Categories[2] == Decorations;
    assert Categories[3] == Bushes;
    assert Categories[4] == Special;
  }

  lemma LookupButterfly()
    ensures Lookup("butterfly") == Some(Item("butterfly", 90))
  {
    assert FindFrom(Flowers, "butterfly", 0) == None;
    assert FindFrom(Trees, "butterfly", 0) == None;
    assert FindFrom(Decorations, "butterfly", 0) == None;
    assert FindFrom(Bushes, "butterfly", 0) == None;
    assert FindFrom(Special, "butterfly", 0) == None;
    assert FindFrom(Animals, "butterfly", 0) == Some(Item("butterfly", 90));
    assert Categories[0] == Flowers;
    assert Categories[1] == Trees;
    assert Categories[2] == Decorations;
    assert Categories[3] == Bushes;
    assert Categories[4] == Special;
    assert Categories[5] == Animals;
  }

  lemma LookupBird()
    ensures Lookup("bird") == Some(Item("bird", 110))
  {
    assert FindFrom(Flowers, "bird", 0) == None;
    assert FindFrom(Trees, "bird", 0) == None;
    assert FindFrom(Decorations, "bird", 0) == None;
    assert FindFrom(Bushes, "bird", 0) == None;
    assert FindFrom(Special, "bird", 0) == None;
    assert FindFrom(Animals, "bird", 0) == Some(Item("bird", 110));
    assert Categories[0] == Flowers;
    assert Categories[1] == Trees;
    assert Categories[2] == Decorations;
    assert Categories[3] == Bushes;
    assert Categories[4] == Special;
    assert Categories[5] == Animals;
  }

  lemma LookupRabbit()
    ensures Lookup("rabbit") == Some(Item("rabbit", 180))
  {
    assert FindFrom(Flowers, "rabbit", 0) == None;
    assert FindFrom(Trees, "rabbit", 0) == None;
    assert FindFrom(Decorations, "rabbit", 0) == None;
    assert FindFrom(Bushes, "rabbit", 0) == None;
    assert FindFrom(Special, "rabbit", 0) == None;
    assert FindFrom(Animals, "rabbit", 0) == Some(Item("rabbit", 180));
    assert Categories[0] == Flowers;
    assert Categories[1] == Trees;
    assert Categories[2] == Decorations;
    assert Categories[3] == Bushes;
    assert Categories[4] == Special;
    assert Categories[5] == Animals;
  }

  /* ---------------------------------------------------------------------- */
  /* Shapes                                                                  */
  /* ---------------------------------------------------------------------- */

  datatype Shape = Tree | Flower | Bench | Fountain | Box

  /** `s.includes(part)`: `part` occurs somewhere in `s`. */
  predicate Contains(s: string, part: string)
    decreases |s|
  {
    |part| <= |s| && (s[..|part|] == part || Contains(s[1..], part))
  }

  /** `part` occurs in `s` starting at index `i`. */
  predicate OccursAt(s: string, part: string, i: int) {
    0 <= i && i + |part| <= |s| && s[i..i + |part|] == part
  }

  /** `Contains` agrees with the plain definition: `part` occurs in `s` at
      some index. */
  lemma {:induction false} ContainsSpec(s: string, part: string)
    ensures Contains(s, part) <==> exists i :: OccursAt(s, part, i)
    decreases |s|
  {
    var n := |part|;
    if n > |s| {
      assert forall i :: !OccursAt(s, part, i);
    } else if s[..n] == part {
      assert OccursAt(s, part, 0);
    } else {
      ContainsSpec(s[1..], part);
      if Contains(s, part) {
        var i :| OccursAt(s[1..], part, i);
        assert s[1..][i..i + n] == s[i + 1..i + 1 + n];
        assert OccursAt(s, part, i + 1);
      }
      if exists i :: OccursAt(s, part, i) {
        var i :| OccursAt(s, part, i);
        assert i > 0;
        assert s[1..][i - 1..i - 1 + n] == s[i..i + n];
        assert OccursAt(s[1..], part, i - 1);
      }
    }
  }

  /** A string that lacks the first character of `part` cannot contain it. */
  lemma {:induction false} HeadAbsent(s: string, part: string)
    requires |part| > 0 && part[0] !in s
    ensures !Contains(s, part)
    decreases |s|
  {
    if |part| <= |s| {
      assert s[..|part|][0] == s[0];
      HeadAbsent(s[1..], part);
    }
  }

  predicate TreeId(id: string) {
    Contains(id, "tree") || id == "palm" || id == "pine" || id == "deciduous" || id == "cherry"
  }

  predicate FlowerId(id: string) {
    Contains(id, "flower") || Contains(id, "rose") || Contains(id, "tulip")
  }

  /** The branch of `createItemMesh` an id takes. */
  function ShapeOf(id: string): (sh: Shape)
    // the tree test is made first, so it wins over the flower test
    ensures sh == Tree <==> TreeId(id)
    ensures sh == Flower <==> !TreeId(id) && FlowerId(id)
    ensures sh == Bench <==> !TreeId(id) && !FlowerId(id) && id == "bench"
    ensures sh == Fountain <==> !TreeId(id) && !FlowerId(id) && id == "fountain"
    ensures sh == Box <==> !TreeId(id) && !FlowerId(id) && id != "bench" && id != "fountain"
  {
    if TreeId(id) then Tree
    else if FlowerId(id) then Flower
    else if id == "bench" then Bench
    else if id == "fountain" then Fountain
    else Box
  }

  /** An id with no t, f or r in it can match none of the substring tests,
      so only the exact-name tests decide its shape. */
  lemma PlainIdShape(id: string)
    requires 't' !in id && 'f' !in id && 'r' !in id
    ensures ShapeOf(id) == Tree <==> id == "palm" || id == "pine" || id == "deciduous"
    ensures ShapeOf(id) == Bench <==> id == "bench"
    ensures ShapeOf(id) == Box <==> id != "bench" && id != "palm" && id != "pine" && id != "deciduous"
  {
    HeadAbsent(id, "tree");
    HeadAbsent(id, "flower");
    HeadAbsent(id, "rose");
    HeadAbsent(id, "tulip");
  }

  /** Two strings differing at position `i` of `part` cannot match it there. */
  lemma MismatchAt(s: string, part: string, i: nat)
    requires i < |part| <= |s| && s[i] != part[i]
    ensures s[..|part|] != part
  {
    assert s[..|part|][i] == s[i];
  }

  /* Of the catalog's own items, only rose, tulip and sunflower (by its
     "flower" substring) are drawn as flowers; daisy, hibiscus, blossom and
     lamp have none of the letters t, f, r and fall through to the box. */

  lemma ShapeRose()
    ensures ShapeOf("rose") == Flower
  {
    HeadAbsent("rose", "tree");
    assert "rose"[..4] == "rose";
  }

  lemma ShapeTulip()
    ensures ShapeOf("tulip") == Flower
  {
    assert !Contains("lip", "tree");
    assert "ulip"[1..] == "lip";
    MismatchAt("ulip", "tree", 0);
    assert !Contains("ulip", "tree");
    assert "tulip"[1..] == "ulip";
    MismatchAt("tulip", "tree", 1);
    assert !Contains("tulip", "tree");
    assert "tulip"[..5] == "tulip";
  }

  lemma ShapeSunflower()
    ensures ShapeOf("sunflower") == Flower
  {
    HeadAbsent("sunflower", "tree");
    assert "flower"[..6] == "flower";
    assert "nflower"[1..] == "flower";
    assert "unflower"[1..] == "nflower";
    assert "sunflower"[1..] == "unflower";
    assert Contains("unflower", "flower");
  }

  lemma ShapeFountain()
    ensures ShapeOf("fountain") == Fountain
  {
    HeadAbsent("fountain", "rose");
    HeadAbsent("ountain", "flower");
    assert "fountain"[1..] == "ountain";
    MismatchAt("fountain", "flower", 1);
    assert !Contains("fountain", "flower");
    assert "tain"[1..] == "ain";
    MismatchAt("tain", "tree", 1);
    assert !Contains("tain", "tree");
    assert !Contains("tain", "tulip");
    assert "ntain"[1..] == "tain";
    MismatchAt("ntain", "tree", 0);
    assert !Contains("ntain", "tree");
    assert !Contains("ntain", "tulip");
    assert "untain"[1..] == "ntain";
    MismatchAt("untain", "tree", 0);
    MismatchAt("untain", "tulip", 0);
    assert !Contains("untain", "tree");
    assert !Contains("untain", "tulip");
    assert "ountain"[1..] == "untain";
    MismatchAt("ountain", "tree", 0);
    MismatchAt("ountain", "tulip", 0);
    assert !Contains("ountain", "tree");
    assert !Contains("ountain", "tulip");
    MismatchAt("fountain", "tree", 1);
    MismatchAt("fountain", "tulip", 1);
  }
}

=== FILE: gamestate.dfy ===
/** The in-memory part of the arcade game's `GameState` (game.js): the coin
    balance, the high score and the list of placed garden decorations. */
module GameState {

  /** A placed decoration as it is saved: catalog id and ground position. */
  datatype SavedItem = SavedItem(itemId: string, x: real, z: real)

  datatype Ledger = Ledger(coins: int, highScore: int, gardenItems: seq<SavedItem>)

  /** The state before anything is loaded or earned. */
  const Empty := Ledger(0, 0, [])

  /** `addCoins`. */
  function AddCoins(l: Ledger, amount: int): (r: Ledger)
    ensures r.coins == l.coins + amount
    ensures r.highScore == l.highScore && r.gardenItems == l.gardenItems
  {
    l.(coins := l.coins + amount)
  }

  /** `spendCoins`: succeeds exactly when the balance covers the amount, and
      then takes exactly that amount; on refusal nothing changes. */
  function SpendCoins(l: Ledger, amount: int): (r: (bool, Ledger))
    ensures r.0 <==> l.coins >= amount
    ensures r.0 ==> r.1 == l.(coins := l.coins - amount)
    ensures !r.0 ==> r.1 == l
    // a balance that starts non-negative never goes negative
    ensures l.coins >= 0 ==> r.1.coins >= 0
  {
    if l.coins >= amount then (true, l.(coins := l.coins - amount)) else (false, l)
  }

  /** Spending what was just added gives back the ledger as it was. */
  lemma SpendUndoesAdd(l: Ledger, amount: int)
    requires l.coins >= 0
    ensures SpendCoins(AddCoins(l, amount), amount) == (true, l)
  {
  }

  /** `updateHighScore`: the high score becomes the larger of the two. */
  function UpdateHighScore(l: Ledger, score: int): (r: Ledger)
    ensures r.highScore >= l.highScore && r.highScore >= score
    ensures r.highScore == l.highScore || r.highScore == score
    ensures r.coins == l.coins && r.gardenItems == l.gardenItems
  {
    if score > l.highScore then l.(highScore := score) else l
  }

  /** Recording the same score twice changes nothing the second time. */
  lemma UpdateHighScoreIdempotent(l: Ledger, score: int)
    ensures UpdateHighScore(UpdateHighScore(l, score), score) == UpdateHighScore(l, score)
  {
  }

  /** `addGardenItem`: the item goes to the end of the list. */
  function AddGardenItem(l: Ledger, item: SavedItem): (r: Ledger)
    ensures |r.gardenItems| == |l.gardenItems| + 1
    ensures r.gardenItems[..|l.gardenItems|] == l.gardenItems
    ensures r.gardenItems[|l.gardenItems|] == item
    ensures r.coins == l.coins && r.highScore == l.highScore
  {
    l.(gardenItems := l.gardenItems + [item])
  }

  /** Where `Array.prototype.splice(i, 1)` starts on an array of length `len`:
      a negative index counts from the end, and both ends are clamped. */
  function SpliceStart(len: nat, i: int): (k: nat)
    ensures k <= len
    ensures 0 <= i <= len ==> k == i
    ensures i < 0 && len + i >= 0 ==> k == len + i
  {
    if i < 0 then (if len + i < 0 then 0 else len + i) else if i > len then len else i
  }

  /** `removeGardenItem`: `splice(index, 1)` on the list. */
  function RemoveGardenItem(l: Ledger, index: int): (r: Ledger)
    ensures r.coins == l.coins && r.highScore == l.highScore
    // an index in range removes exactly that element and keeps the others in order
    ensures 0 <= index < |l.gardenItems| ==>
              && |r.gardenItems| == |l.gardenItems| - 1
              && (forall j :: 0 <= j < index ==> r.gardenItems[j] == l.gardenItems[j])
              && (forall j :: index <= j < |r.gardenItems| ==> r.gardenItems[j] == l.gardenItems[j + 1])
    // an index at or past the end removes nothing
    ensures index >= |l.gardenItems| ==> r == l
  {
    var items := l.gardenItems;
    var k := SpliceStart(|items|, index);
    if k < |items| then l.(gardenItems := items[..k] + items[k + 1..]) else l
  }

  /** Removing the item just added restores the ledger. */
  lemma RemoveUndoesAdd(l: Ledger, item: SavedItem)
    ensures RemoveGardenItem(AddGardenItem(l, item), |l.gardenItems|) == l
  {
    assert (l.gardenItems + [item])[..|l.gardenItems|] == l.gardenItems;
  }

  /** `reset`, without the storage call. */
  function Reset(l: Ledger): (r: Ledger)
    ensures r.coins == 0 && r.highScore == 0 && r.gardenItems == []
  {
    Empty
  }
}

=== FILE: garden.dfy ===
/** The garden screen (game.js `GardenMode`): choosing a decoration from the
    shop, placing it with a click on the ground, selecting a placed one,
    deleting it, and rebuilding the garden from the saved list.

    The browser keeps placed decorations as objects and finds them again by
    identity (`indexOf`, `===` on meshes); here every placed decoration
    carries a serial number that stands for that identity. */
module Garden {
  import opened Wrappers
  import opened Catalog
  import GS = GameState

  /** One entry of `placedItems`. */
  datatype Placed = Placed(serial: nat, item: Item, x: real, z: real)

  /** What a decoration looks like from outside: catalog item and position. */
  datatype Spot = Spot(item: Item, x: real, z: real)

  /** The garden screen's state together with the shared ledger.
      `selected` is the shop item waiting to be placed, `selectedPlaced`
      the serial of the highlighted placed decoration. */
  datatype Garden = Garden(
    ledger: GS.Ledger,
    placed: seq<Placed>,
    selected: Option<Item>,
    selectedPlaced: Option<nat>,
    nextSerial: nat)

  /** A fresh garden screen: nothing placed, nothing selected. */
  function Fresh(ledger: GS.Ledger): (g: Garden)
    ensures g.ledger == ledger && g.placed == [] && g.selected.None? && g.selectedPlaced.None?
  {
    Garden(ledger, [], None, None, 0)
  }

  function SpotOf(p: Placed): Spot {
    Spot(p.item, p.x, p.z)
  }

  /** The placed decorations as the player sees them. */
  function Project(ps: seq<Placed>): seq<Spot> {
    seq(|ps|, i requires 0 <= i < |ps| => SpotOf(ps[i]))
  }

  /* ---------------------------------------------------------------------- */
  /* Resolving the saved list                                               */
  /* ---------------------------------------------------------------------- */

  /** What one saved entry contributes when loaded: its catalog item at its
      position, or nothing when the catalog does not know the id. */
  function Shown(s: GS.SavedItem): (r: seq<Spot>)
    ensures |r| <= 1
    ensures |r| == 1 <==> Lookup(s.itemId).Some?
    ensures |r| == 1 ==> r[0].item.id == s.itemId && r[0].x == s.x && r[0].z == s.z
    // the item shown is the one the catalog lookup gives for the id
    ensures |r| == 1 ==> r[0].item == Lookup(s.itemId).value
  {
    match Lookup(s.itemId)
    case Some(it) => [Spot(it, s.x, s.z)]
    case None => []
  }

  /** The decorations a saved list stands for, in order; entries with an id
      the catalog does not know are skipped. */
  function Resolve(saved: seq<GS.SavedItem>): (r: seq<Spot>)
    ensures |r| <= |saved|
    decreases |saved|
  {
    if saved == [] then []
    else Resolve(saved[..|saved| - 1]) + Shown(saved[|saved| - 1])
  }

  predicate AllKnown(saved: seq<GS.SavedItem>) {
    forall j :: 0 <= j < |saved| ==> Lookup(saved[j].itemId).Some?
  }

  /** Resolving a concatenation resolves both parts. */
  lemma {:induction false} ResolveConcat(a: seq<GS.SavedItem>, b: seq<GS.SavedItem>)
    ensures Resolve(a + b) == Resolve(a) + Resolve(b)
    decreases |b|
  {
    if b == [] {
      assert a + b == a;
    } else {
      var n := |b| - 1;
      assert (a + b)[..|a + b| - 1] == a + b[..n];
      assert (a + b)[|a + b| - 1] == b[n];
      ResolveConcat(a, b[..n]);
    }
  }

  /** When the catalog knows every saved id, nothing is skipped. */
  lemma {:induction false} ResolveAllKnown(saved: seq<GS.SavedItem>)
    requires AllKnown(saved)
    ensures |Resolve(saved)| == |saved|
    decreases |saved|
  {
    if saved != [] {
      var n := |saved| - 1;
      assert Lookup(saved[n].itemId).Some?;
      ResolveAllKnown(saved[..n]);
    }
  }

  /** The position in the saved list of the `k`-th decoration it resolves to. */
  function SavedSlot(saved: seq<GS.SavedItem>, k: nat): (j: nat)
    requires k < |Resolve(saved)|
    ensures j < |saved| && Lookup(saved[j].itemId).Some?
    ensures |Resolve(saved[..j])| == k
    decreases |saved|
  {
    var n := |saved| - 1;
    if k < |Resolve(saved[..n])| then
      var j := SavedSlot(saved[..n], k);
      assert saved[..n][..j] == saved[..j];
      j
    else
      n
  }

  /** Deleting a saved entry the catalog knows deletes exactly the
      decoration it showed from what the list resolves to. */
  lemma ResolveRemoveAt(saved: seq<GS.SavedItem>, j: nat)
    requires j < |saved| && Lookup(saved[j].itemId).Some?
    ensures var k := |Resolve(saved[..j])|;
            k < |Resolve(saved)| &&
            Resolve(saved[..j] + saved[j + 1..]) == Resolve(saved)[..k] + Resolve(saved)[k + 1..]
  {
    var a, s, b := saved[..j], saved[j], saved[j + 1..];
    assert saved == (a + [s]) + b;
    ResolveSnoc(a, s);
    ResolveConcat(a + [s], b);
    ResolveConcat(a, b);
    var ra, rs, rb := Resolve(a), Shown(s), Resolve(b);
    assert |rs| == 1;
    assert Resolve(saved) == ra + rs + rb;
    assert (ra + rs + rb)[..|ra|] == ra;
    assert (ra + rs + rb)[|ra| + 1..] == rb;
  }

  /** Appending one saved entry appends what it shows. */
  lemma ResolveSnoc(saved: seq<GS.SavedItem>, s: GS.SavedItem)
    ensures Resolve(saved + [s]) == Resolve(saved) + Shown(s)
  {
    assert (saved + [s])[..|saved|] == saved;
  }

  lemma ProjectSnoc(ps: seq<Placed>, p: Placed)
    ensures Project(ps + [p]) == Project(ps) + [SpotOf(p)]
  {
  }

  lemma ProjectRemove(ps: seq<Placed>, i: nat)
    requires i < |ps|
    ensures Project(ps[..i] + ps[i + 1..]) == Project(ps)[..i] + Project(ps)[i + 1..]
  {
  }

  /* ---------------------------------------------------------------------- */
  /* Invariants                                                              */
  /* ---------------------------------------------------------------------- */

  /** The serials in `ps` are distinct and all below `next`. */
  predicate SerialsBelow(ps: seq<Placed>, next: nat) {
    && (forall i :: 0 <= i < |ps| ==> ps[i].serial < next)
    && (forall i, j :: 0 <= i < j < |ps| ==> ps[i].serial != ps[j].serial)
  }

  /** Handing out the next serial keeps serials identifying. */
  lemma SerialsSnoc(ps: seq<Placed>, next: nat, p: Placed)
    requires SerialsBelow(ps, next) && p.serial == next
    ensures SerialsBelow(ps + [p], next + 1)
  {
  }

  /** Serials identify placed decorations: they are distinct and all below
      the next one handed out. */
  predicate Valid(g: Garden) {
    SerialsBelow(g.placed, g.nextSerial)
  }

  /** The garden on screen is the saved list, read back. */
  predicate Aligned(g: Garden) {
    Resolve(g.ledger.gardenItems) == Project(g.placed)
  }

  /* ---------------------------------------------------------------------- */
  /* Loading                                                                 */
  /* ---------------------------------------------------------------------- */

  /** One turn of the `forEach` in `loadGardenItems`: a saved entry the
      catalog knows is appended to the placed list with the next serial. */
  function LoadOne(placed: seq<Placed>, serial: nat, s: GS.SavedItem): (r: (seq<Placed>, nat))
    requires SerialsBelow(placed, serial)
    ensures SerialsBelow(r.0, r.1) && r.1 >= serial
    ensures |r.0| >= |placed| && r.0[..|placed|] == placed
    ensures Project(r.0) == Project(placed) + Shown(s)
  {
    match Lookup(s.itemId)
    case Some(it) =>
      var p := Placed(serial, it, s.x, s.z);
      ProjectSnoc(placed, p);
      SerialsSnoc(placed, serial, p);
      assert (placed + [p])[..|placed|] == placed;
      (placed + [p], serial + 1)
    case None => (placed, serial)
  }

  /** What the loop of `loadGardenItems` keeps after `k` saved entries:
      the placed list is the old one with the entries' decorations after it,
      and serials still identify. */
  predicate LoadedUpTo(g: Garden, placed: seq<Placed>, serial: nat, k: nat)
    requires k <= |g.ledger.gardenItems|
  {
    && |placed| >= |g.placed| && placed[..|g.placed|] == g.placed
    && Project(placed) == Project(g.placed) + Resolve(g.ledger.gardenItems[..k])
    && SerialsBelow(placed, serial)
  }

  lemma LoadStep(g: Garden, placed: seq<Placed>, serial: nat, k: nat)
    requires k < |g.ledger.gardenItems| && LoadedUpTo(g, placed, serial, k)
    ensures var next := LoadOne(placed, serial, g.ledger.gardenItems[k]);
            LoadedUpTo(g, next.0, next.1, k + 1)
  {
    var saved := g.ledger.gardenItems;
    var next := LoadOne(placed, serial, saved[k]);
    assert next.0[..|g.placed|] == g.placed by {
      assert next.0[..|g.placed|] == next.0[..|placed|][..|g.placed|];
    }
    assert Project(next.0) == Project(g.placed) + Resolve(saved[..k + 1]) by {
      assert saved[..k + 1] == saved[..k] + [saved[k]];
      ResolveSnoc(saved[..k], saved[k]);
    }
  }

  /** `loadGardenItems`: every saved entry whose id the catalog knows is
      appended to the placed list, in saved order; the rest are skipped.
      The list is not cleared first. */
  method LoadGardenItems(g: Garden) returns (r: Garden)
    requires Valid(g)
    ensures Valid(r)
    ensures r.ledger == g.ledger && r.selected == g.selected && r.selectedPlaced == g.selectedPlaced
    // the decorations already on screen stay, and stay first
    ensures |r.placed| >= |g.placed| && r.placed[..|g.placed|] == g.placed
    ensures Project(r.placed) == Project(g.placed) + Resolve(g.ledger.gardenItems)
  {
    var saved := g.ledger.gardenItems;
    var placed := g.placed;
    var serial := g.nextSerial;
    assert saved[..0] == [];
    for k := 0 to |saved|
      invariant LoadedUpTo(g, placed, serial, k)
    {
      LoadStep(g, placed, serial, k);
      var next := LoadOne(placed, serial, saved[k]);
      placed, serial := next.0, next.1;
    }
    assert saved[..|saved|] == saved;
    r := g.(placed := placed, nextSerial := serial);
  }

  /** The first visit to the garden shows exactly the saved decorations. */
  method Open(ledger: GS.Ledger) returns (g: Garden)
    ensures Valid(g) && Aligned(g)
    ensures g.ledger == ledger && g.selected.None? && g.selectedPlaced.None?
  {
    g := LoadGardenItems(Fresh(ledger));
  }

  /** `init` on a later visit: the screen object survives, so its placed
      list still holds the decorations of the last visit, and the saved
      list is loaded on top of it. */
  method Reopen(g: Garden) returns (r: Garden)
    requires Valid(g)
    ensures Valid(r)
    ensures r.ledger == g.ledger
    ensures Project(r.placed) == Project(g.placed) + Resolve(g.ledger.gardenItems)
  {
    r := LoadGardenItems(g);
  }

  /** Coming back to a garden that shows one decoration shows it twice,
      while the saved list still holds it once. */
  method ReopenDuplicates() returns (r: Garden)
    ensures |r.placed| == 2 && |r.ledger.gardenItems| == 1
    ensures r.placed[0].item == r.placed[1].item && !Aligned(r)
  {
    LookupRose();
    var ledger := GS.Ledger(0, 0, [GS.SavedItem("rose", 1.0, 1.0)]);
    assert ledger.gardenItems[..0] == [];
    var g := Open(ledger);
    assert Project(g.placed) == [Spot(Item("rose", 50), 1.0, 1.0)];
    r := Reopen(g);
    assert Project(r.placed)[0] == SpotOf(r.placed[0]);
    assert Project(r.placed)[1] == SpotOf(r.placed[1]);
  }

  /** `init`, as it was evidently meant: the garden is rebuilt from the
      saved list alone, whatever the last visit left behind. */
  method ReopenFixed(g: Garden) returns (r: Garden)
    requires Valid(g)
    ensures Valid(r) && Aligned(r)
    ensures r.ledger == g.ledger && r.selected == g.selected
  {
    r := LoadGardenItems(g.(placed := [], selectedPlaced := None));
  }

  /* ---------------------------------------------------------------------- */
  /* Shop selection and placement                                            */
  /* ---------------------------------------------------------------------- */

  /** `selectItem`: an item the player cannot afford is ignored; otherwise
      it becomes the item waiting to be placed. Nothing is paid yet. */
  function SelectItem(g: Garden, item: Item): (r: Garden)
    ensures r.selected == (if g.ledger.coins < item.price then g.selected else Some(item))
    ensures r.ledger == g.ledger && r.placed == g.placed && r.selectedPlaced == g.selectedPlaced
  {
    if g.ledger.coins < item.price then g else g.(selected := Some(item))
  }

  /** `placeItem`: the decoration is appended to the screen and its id and
      position to the saved list. */
  function PlaceItem(g: Garden, item: Item, x: real, z: real): (r: Garden)
    ensures |r.placed| == |g.placed| + 1 && r.placed[..|g.placed|] == g.placed
    ensures SpotOf(r.placed[|g.placed|]) == Spot(item, x, z)
    ensures r.ledger == GS.AddGardenItem(g.ledger, GS.SavedItem(item.id, x, z))
    ensures r.selected == g.selected && r.selectedPlaced == g.selectedPlaced
  {
    g.(placed := g.placed + [Placed(g.nextSerial, item, x, z)],
       ledger := GS.AddGardenItem(g.ledger, GS.SavedItem(item.id, x, z)),
       nextSerial := g.nextSerial + 1)
  }

  /** Placing a catalog item keeps the screen and the saved list in step. */
  lemma PlacePreservesInvariants(g: Garden, item: Item, x: real, z: real)
    requires Valid(g) && Aligned(g) && InCatalog(item)
    ensures Valid(PlaceItem(g, item, x, z)) && Aligned(PlaceItem(g, item, x, z))
  {
    var saved, entry := g.ledger.gardenItems, GS.SavedItem(item.id, x, z);
    var p := Placed(g.nextSerial, item, x, z);
    assert PlaceItem(g, item, x, z).placed == g.placed + [p];
    assert PlaceItem(g, item, x, z).ledger.gardenItems == saved + [entry];
    LookupFindsCatalogItems(item);
    assert Shown(entry) == [SpotOf(p)];
    ResolveSnoc(saved, entry);
    ProjectSnoc(g.placed, p);
    SerialsSnoc(g.placed, g.nextSerial, p);
  }

  /** The index of the decoration with this serial in the placed list, or
      -1 (`indexOf`). */
  function IndexOf(ps: seq<Placed>, serial: nat): (i: int)
    ensures -1 <= i < |ps|
    ensures i >= 0 ==> ps[i].serial == serial && forall j :: 0 <= j < i ==> ps[j].serial != serial
    ensures i == -1 <==> forall j :: 0 <= j < |ps| ==> ps[j].serial != serial
  {
    IndexFrom(ps, serial, 0)
  }

  function IndexFrom(ps: seq<Placed>, serial: nat, k: nat): (i: int)
    requires k <= |ps|
    ensures i == -1 || k <= i < |ps|
    ensures i >= 0 ==> ps[i].serial == serial && forall j :: k <= j < i ==> ps[j].serial != serial
    ensures i == -1 <==> forall j :: k <= j < |ps| ==> ps[j].serial != serial
    decreases |ps| - k
  {
    if k == |ps| then -1
    else if ps[k].serial == serial then k
    else IndexFrom(ps, serial, k + 1)
  }

  /** `onCanvasClick`. `dragging` is the camera-drag flag, `ground` the point
      of the ground under the pointer if the ray hits it, `picked` the
      serial of the placed decoration under the pointer if any. With an item
      waiting, a hit on the ground pays for it and places it there; without
      one, the decoration under the pointer becomes the selected one. */
  function OnCanvasClick(g: Garden, dragging: bool, ground: Option<(real, real)>, picked: Option<nat>): (r: Garden)
    ensures dragging ==> r == g
    // a placement is paid for in full, and only with coins the player has
    ensures |r.placed| == |g.placed| + 1 ==>
              && g.selected.Some? && g.ledger.coins >= g.selected.value.price
              && r.ledger.coins == g.ledger.coins - g.selected.value.price
              && r.placed[|g.placed|].item == g.selected.value && r.selected.None?
    ensures |r.placed| == |g.placed| || |r.placed| == |g.placed| + 1
    ensures |r.placed| == |g.placed| ==> r.ledger == g.ledger && r.placed == g.placed
    ensures g.ledger.coins >= 0 ==> r.ledger.coins >= 0
    // with an item waiting, a click never changes the selected decoration
    ensures g.selected.Some? ==> r.selectedPlaced == g.selectedPlaced
    // without one, a click only ever selects a decoration that is there
    ensures g.selected.None? && r.selectedPlaced != g.selectedPlaced ==>
              r.selectedPlaced.Some? && IndexOf(g.placed, r.selectedPlaced.value) >= 0
  {
    if dragging then g
    else match g.selected
      case Some(item) =>
        (match ground
         case Some(point) =>
           var (ok, ledger) := GS.SpendCoins(g.ledger, item.price);
           if ok then PlaceItem(g.(ledger := ledger), item, point.0, point.1).(selected := None) else g
         case None => g)
      case None =>
        (match picked
         case Some(s) => if IndexOf(g.placed, s) >= 0 then g.(selectedPlaced := Some(s)) else g
         case None => g)
  }

  /** A click keeps the screen and the saved list in step, provided items
      only ever come from the catalog. */
  lemma ClickPreservesInvariants(g: Garden, dragging: bool, ground: Option<(real, real)>, picked: Option<nat>)
    requires Valid(g) && Aligned(g)
    requires g.selected.Some? ==> InCatalog(g.selected.value)
    ensures Valid(OnCanvasClick(g, dragging, ground, picked))
    ensures Aligned(OnCanvasClick(g, dragging, ground, picked))
  {
    if !dragging && g.selected.Some? && ground.Some? {
      var (ok, ledger) := GS.SpendCoins(g.ledger, g.selected.value.price);
      if ok {
        PlacePreservesInvariants(g.(ledger := ledger), g.selected.value, ground.value.0, ground.value.1);
      }
    }
  }

  /** Choosing an affordable item and clicking on the ground places it and
      charges its price. */
  lemma SelectThenClickPlaces(g: Garden, item: Item, x: real, z: real, picked: Option<nat>)
    requires g.ledger.coins >= item.price
    ensures var r := OnCanvasClick(SelectItem(g, item), false, Some((x, z)), picked);
            && |r.placed| == |g.placed| + 1
            && SpotOf(r.placed[|g.placed|]) == Spot(item, x, z)
            && r.ledger.coins == g.ledger.coins - item.price
            && r.ledger.gardenItems == g.ledger.gardenItems + [GS.SavedItem(item.id, x, z)]
            && r.selected.None?
  {
  }

  /* ---------------------------------------------------------------------- */
  /* Removal                                                                 */
  /* ---------------------------------------------------------------------- */

  /** Takes the `i`-th decoration off the screen and `splice`s entry `slot`
      out of the saved list; the highlight is dropped. */
  function Without(g: Garden, i: nat, slot: int): (r: Garden)
    requires i < |g.placed|
    ensures |r.placed| == |g.placed| - 1 && r.selectedPlaced.None?
    ensures r.ledger == GS.RemoveGardenItem(g.ledger, slot)
    ensures r.selected == g.selected && r.nextSerial == g.nextSerial
  {
    g.(placed := g.placed[..i] + g.placed[i + 1..],
       ledger := GS.RemoveGardenItem(g.ledger, slot),
       selectedPlaced := None)
  }

  /** Taking one decoration away keeps serials identifying. */
  lemma SerialsRemove(ps: seq<Placed>, next: nat, i: nat)
    requires SerialsBelow(ps, next) && i < |ps|
    ensures SerialsBelow(ps[..i] + ps[i + 1..], next)
  {
    var qs := ps[..i] + ps[i + 1..];
    forall j | 0 <= j < |qs|
      ensures qs[j] == (if j < i then ps[j] else ps[j + 1])
    {
    }
  }

  /** `removeItem`, as written: the decoration's index in the placed list
      is also used as the index into the saved list. */
  function RemoveItem(g: Garden, serial: nat): (r: Garden)
    // a decoration that is not there is not removed, and nothing changes
    ensures IndexOf(g.placed, serial) == -1 ==> r == g
    // otherwise that decoration leaves the screen, the others stay in order
    // and the saved entry at the same index goes
    ensures IndexOf(g.placed, serial) >= 0 ==>
              var i := IndexOf(g.placed, serial);
              && r.placed == g.placed[..i] + g.placed[i + 1..]
              && r.ledger == GS.RemoveGardenItem(g.ledger, i)
              && r.selectedPlaced.None?
  {
    var i := IndexOf(g.placed, serial);
    if i < 0 then g
    else Without(g, i, i)
  }

  /** `removeItem` as evidently intended: the saved entry removed is the one
      the decoration was loaded or placed from. */
  function RemoveItemAligned(g: Garden, serial: nat): (r: Garden)
    ensures IndexOf(g.placed, serial) == -1 ==> r == g
    ensures IndexOf(g.placed, serial) >= 0 ==>
              var i := IndexOf(g.placed, serial);
              && r.placed == g.placed[..i] + g.placed[i + 1..]
              && r.selectedPlaced.None?
              && r.ledger.coins == g.ledger.coins && r.ledger.highScore == g.ledger.highScore
  {
    var i := IndexOf(g.placed, serial);
    var saved := g.ledger.gardenItems;
    if i < 0 then g
    else Without(g, i, if i < |Resolve(saved)| then SavedSlot(saved, i) else i)
  }

  /** On an aligned garden every decoration has a saved entry behind it. */
  lemma AlignedHasSlot(g: Garden, i: nat)
    requires Aligned(g) && i < |g.placed|
    ensures i < |Resolve(g.ledger.gardenItems)|
  {
    assert |Project(g.placed)| == |g.placed|;
  }

  /** Removing decoration `i` and the saved entry behind it leaves a saved
      list that reads back as the remaining decorations. */
  lemma RemoveBothAligned(saved: seq<GS.SavedItem>, placed: seq<Placed>, i: nat)
    requires Resolve(saved) == Project(placed) && i < |placed|
    ensures i < |Resolve(saved)|
    ensures var j := SavedSlot(saved, i);
            Resolve(saved[..j] + saved[j + 1..]) == Project(placed[..i] + placed[i + 1..])
  {
    assert |Project(placed)| == |placed|;
    var j := SavedSlot(saved, i);
    assert |Resolve(saved[..j])| == i;
    ResolveRemoveAt(saved, j);
    ProjectRemove(placed, i);
  }

  /** Removing decoration `i` together with the saved entry behind it keeps
      the garden aligned. */
  lemma WithoutSlotAligned(g: Garden, i: nat)
    requires Aligned(g) && i < |g.placed| && i < |Resolve(g.ledger.gardenItems)|
    ensures Aligned(Without(g, i, SavedSlot(g.ledger.gardenItems, i)))
  {
    var saved := g.ledger.gardenItems;
    var j := SavedSlot(saved, i);
    SpliceRemoves(g.ledger, j);
    RemoveBothAligned(saved, g.placed, i);
  }

  /** An in-range `splice(j, 1)` of the saved list is the list without
      entry `j`. */
  lemma SpliceRemoves(l: GS.Ledger, j: nat)
    requires j < |l.gardenItems|
    ensures GS.RemoveGardenItem(l, j).gardenItems == l.gardenItems[..j] + l.gardenItems[j + 1..]
  {
  }

  lemma WithoutValid(g: Garden, i: nat, slot: int)
    requires Valid(g) && i < |g.placed|
    ensures Valid(Without(g, i, slot))
  {
    SerialsRemove(g.placed, g.nextSerial, i);
  }

  /** On an aligned garden the corrected removal takes out the saved entry
      the decoration came from, and keeps the screen and the saved list in
      step. */
  lemma RemoveItemAlignedPreservesInvariants(g: Garden, serial: nat)
    requires Valid(g) && Aligned(g)
    ensures Valid(RemoveItemAligned(g, serial)) && Aligned(RemoveItemAligned(g, serial))
    ensures IndexOf(g.placed, serial) >= 0 ==>
              |RemoveItemAligned(g, serial).ledger.gardenItems| == |g.ledger.gardenItems| - 1
  {
    var i := IndexOf(g.placed, serial);
    if i >= 0 {
      AlignedHasSlot(g, i);
      var j := SavedSlot(g.ledger.gardenItems, i);
      assert RemoveItemAligned(g, serial) == Without(g, i, j);
      WithoutSlotAligned(g, i);
      WithoutValid(g, i, j);
    }
  }

  /** Removing the decoration just placed undoes the placement. */
  lemma RemoveUndoesPlace(g: Garden, item: Item, x: real, z: real)
    requires Valid(g) && Aligned(g) && InCatalog(item)
    ensures var r := RemoveItemAligned(PlaceItem(g, item, x, z), g.nextSerial);
            r.placed == g.placed && r.ledger == g.ledger
  {
    var p := PlaceItem(g, item, x, z);
    var saved := g.ledger.gardenItems;
    PlacePreservesInvariants(g, item, x, z);
    assert IndexOf(p.placed, g.nextSerial) == |g.placed|;
    assert |Resolve(saved)| == |g.placed| by {
      assert |Project(g.placed)| == |g.placed|;
    }
    assert p.ledger.gardenItems[..|saved|] == saved;
    assert SavedSlot(p.ledger.gardenItems, |g.placed|) == |saved|;
    assert p.placed[..|g.placed|] == g.placed;
  }

  /** When the catalog knows every saved id, the two removals agree: the
      index on screen is the index in the saved list. */
  lemma RemoveItemCorrectWhenAllKnown(g: Garden, serial: nat)
    requires Aligned(g) && AllKnown(g.ledger.gardenItems)
    ensures RemoveItem(g, serial) == RemoveItemAligned(g, serial)
  {
    var i := IndexOf(g.placed, serial);
    var saved := g.ledger.gardenItems;
    if i >= 0 {
      assert |Project(g.placed)| == |g.placed|;
      var j := SavedSlot(saved, i);
      assert AllKnown(saved[..j]);
      ResolveAllKnown(saved[..j]);
    }
  }

  /** A saved list with an id the catalog no longer knows ahead of a known
      one: deleting the one decoration shown deletes the unknown entry and
      leaves the rose saved, so it comes back on the next visit. */
  lemma RemoveItemMisaligns()
    ensures var g := Garden(GS.Ledger(0, 0, [GS.SavedItem("gnome", 0.0, 0.0), GS.SavedItem("rose", 1.0, 1.0)]),
                            [Placed(0, Item("rose", 50), 1.0, 1.0)], None, Some(0), 1);
            && Aligned(g)
            && RemoveItem(g, 0).placed == []
            && RemoveItem(g, 0).ledger.gardenItems == [GS.SavedItem("rose", 1.0, 1.0)]
            && !Aligned(RemoveItem(g, 0))
  {
    var gnome := GS.SavedItem("gnome", 0.0, 0.0);
    var rose := GS.SavedItem("rose", 1.0, 1.0);
    LookupRose();
    LookupMissesGnome();
    var saved := [gnome, rose];
    assert saved[..1] == [gnome] && saved[..1][..0] == [];
    assert Resolve([gnome]) == [];
    assert Resolve(saved) == [Spot(Item("rose", 50), 1.0, 1.0)];
    assert [rose][..0] == [];
    assert Resolve([rose]) == [Spot(Item("rose", 50), 1.0, 1.0)];
  }

  /** The catalog has no gnome. */
  lemma LookupMissesGnome()
    ensures Lookup("gnome").None?
  {
    assert FindFrom(Flowers, "gnome", 0) == None;
    assert FindFrom(Trees, "gnome", 0) == None;
    assert FindFrom(Decorations, "gnome", 0) == None;
    assert FindFrom(Bushes, "gnome", 0) == None;
    assert FindFrom(Special, "gnome", 0) == None;
    assert FindFrom(Animals, "gnome", 0) == None;
  }

  /** The Delete key, as written: when a decoration is highlighted it goes
      through `RemoveItem`, so the saved entry removed is the one at the
      decoration's index on screen. */
  function PressDelete(g: Garden): (r: Garden)
    ensures g.selectedPlaced.None? || IndexOf(g.placed, g.selectedPlaced.value) == -1 ==> r == g
    ensures g.selectedPlaced.Some? && IndexOf(g.placed, g.selectedPlaced.value) >= 0 ==>
              var i := IndexOf(g.placed, g.selectedPlaced.value);
              && r.placed == g.placed[..i] + g.placed[i + 1..]
              && r.ledger == GS.RemoveGardenItem(g.ledger, i)
              && r.selectedPlaced.None?
    // the highlight is dropped unless there was nothing to remove
    ensures r == g || (r.selectedPlaced.None? && |r.placed| == |g.placed| - 1)
  {
    match g.selectedPlaced
    case None => g
    case Some(s) => RemoveItem(g, s)
  }

  /** The Delete key with the corrected removal: on an aligned garden the
      screen and the saved list stay in step. */
  function PressDeleteFixed(g: Garden): (r: Garden)
    ensures g.selectedPlaced.None? || IndexOf(g.placed, g.selectedPlaced.value) == -1 ==> r == g
    ensures Valid(g) && Aligned(g) ==>
              && Valid(r) && Aligned(r)
              && (r == g || |r.ledger.gardenItems| == |g.ledger.gardenItems| - 1)
    ensures r == g || (r.selectedPlaced.None? && |r.placed| == |g.placed| - 1)
  {
    match g.selectedPlaced
    case None => g
    case Some(s) =>
      if Valid(g) && Aligned(g) then
        RemoveItemAlignedPreservesInvariants(g, s);
        RemoveItemAligned(g, s)
      else
        RemoveItemAligned(g, s)
  }

  /** The Delete key on the garden of `RemoveItemMisaligns`, as written:
      the rose leaves the screen but stays saved. */
  lemma DeleteKeyMisaligns()
    ensures var rose := GS.SavedItem("rose", 1.0, 1.0);
            var g := Garden(GS.Ledger(0, 0, [GS.SavedItem("gnome", 0.0, 0.0), rose]),
                            [Placed(0, Item("rose", 50), 1.0, 1.0)], None, Some(0), 1);
            PressDelete(g).placed == [] && PressDelete(g).ledger.gardenItems == [rose]
  {
  }

  /** The same garden with the corrected Delete key: the rose's entry goes
      and the unknown one stays. */
  lemma DeleteKeyFixed()
    ensures var gnome := GS.SavedItem("gnome", 0.0, 0.0);
            var g := Garden(GS.Ledger(0, 0, [gnome, GS.SavedItem("rose", 1.0, 1.0)]),
                            [Placed(0, Item("rose", 50), 1.0, 1.0)], None, Some(0), 1);
            PressDeleteFixed(g).placed == [] && PressDeleteFixed(g).ledger.gardenItems == [gnome]
  {
    var gnome := GS.SavedItem("gnome", 0.0, 0.0);
    var rose := GS.SavedItem("rose", 1.0, 1.0);
    var saved := [gnome, rose];
    var g := Garden(GS.Ledger(0, 0, saved), [Placed(0, Item("rose", 50), 1.0, 1.0)], None, Some(0), 1);
    RemoveItemMisaligns();
    assert SavedSlot(saved, 0) == 1;
    assert PressDeleteFixed(g) == Without(g, 0, 1);
    assert saved[..1] + saved[2..] == [gnome];
  }

  /** The reset button: the ledger is cleared and so is the screen. The
      highlighted decoration is not forgotten, but it is no longer there, so
      a later Delete finds nothing to remove. */
  function ResetAll(g: Garden): (r: Garden)
    ensures r.ledger == GS.Reset(g.ledger) && r.placed == []
    ensures Valid(r) && Aligned(r)
    ensures r.selectedPlaced == g.selectedPlaced && PressDelete(r) == r
  {
    g.(ledger := GS.Reset(g.ledger), placed := [])
  }
}

=== FILE: intersection.dfy ===
/** One simulation tick of the intersection (script.js `animate`): the phase
    update, then a spawn, then the vehicles, then the pedestrians; and runs
    of ticks interleaved with pedestrian button presses. */
module Intersection {
  import opened Signals
  import V = Vehicles
  import P = Pedestrians

  /** The whole simulation state. `departed` is not in the source: it is the
      model's record of every vehicle removed so far, against which the
      passed-vehicles counter is checked. */
  datatype Sim = Sim(
    signal: Controller,
    vehicles: seq<V.Vehicle>,
    pedestrians: seq<P.Pedestrian>,
    passed: nat,
    lastSpawn: int,
    departed: seq<V.Vehicle>)

  /** The state at page load: north-south green entered at `now`, nothing on
      the roads, and no spawn yet (`lastSpawnTime = 0`). */
  function Init(now: int): (s: Sim)
    ensures s.signal.phase == NorthSouth && s.vehicles == [] && s.pedestrians == [] && s.passed == 0
  {
    Sim(Start(now), [], [], 0, 0, [])
  }

  /** The random draws one tick may consume. */
  datatype TickDraws = TickDraws(spawn: V.SpawnDraw, walkers: P.PerDirection)

  predicate ValidTickDraws(d: TickDraws) {
    V.ValidDraw(d.spawn) && P.ValidDraws(d.walkers)
  }

  /** `updatePhase`, with the pedestrian batches spawned when the walk phase
      is entered, one per queued direction. */
  function UpdatePhase(s: Sim, now: int, cfg: Config, walkers: P.PerDirection): (r: Sim)
    requires P.ValidDraws(walkers)
    ensures r.signal == Advance(s.signal, now, cfg)
    ensures r.vehicles == s.vehicles && r.passed == s.passed && r.departed == s.departed
    // walkers appear only when the walk phase has just been entered
    ensures r.signal.phase == PedestrianWalk && s.signal.phase != PedestrianWalk ==>
              && |r.pedestrians| >= |s.pedestrians| + 3 * |s.signal.queue| > |s.pedestrians|
              && r.pedestrians[..|s.pedestrians|] == s.pedestrians
    // each requested direction gets its own batch of three to five walkers,
    // and no other direction gets any
    ensures r.signal.phase == PedestrianWalk && s.signal.phase != PedestrianWalk && NoDuplicates(s.signal.queue) ==>
              forall d :: P.CountDir(r.pedestrians[|s.pedestrians|..], d) ==
                            if d in s.signal.queue then P.BatchSize(walkers.Of(d).size) else 0
    ensures !(r.signal.phase == PedestrianWalk && s.signal.phase != PedestrianWalk) ==>
              r.pedestrians == s.pedestrians
  {
    var c := Advance(s.signal, now, cfg);
    P.BatchesCount(c.queue, walkers);
    var ps := if c.phase == PedestrianWalk && s.signal.phase != PedestrianWalk
              then P.Spawn(s.pedestrians, c.queue, walkers)
              else s.pedestrians;
    assert c.phase == PedestrianWalk && s.signal.phase != PedestrianWalk ==>
             ps[|s.pedestrians|..] == P.Batches(c.queue, walkers);
    s.(signal := c, pedestrians := ps)
  }

  /** One frame of the animation loop at time `now`. */
  function Tick(s: Sim, now: int, cfg: Config, d: TickDraws): (r: Sim)
    requires ValidTickDraws(d)
    ensures r.signal == Advance(s.signal, now, cfg)
    ensures |r.departed| >= |s.departed| && r.departed[..|s.departed|] == s.departed
    // the counter rises by one for each removed vehicle that had crossed
    ensures r.passed == s.passed + V.CountCrossed(r.departed[|s.departed|..])
    ensures forall i :: |s.departed| <= i < |r.departed| ==> V.Far(r.departed[i])
  {
    var s1 := UpdatePhase(s, now, cfg, d.walkers);
    var f := V.Spawn(V.Fleet(s1.vehicles, s1.lastSpawn), now, cfg, d.spawn);
    var sweep := V.UpdateVehicles(s1.signal.phase, f.vehicles);
    var ps := P.UpdatePedestrians(s1.pedestrians);
    assert (s.departed + sweep.exited)[|s.departed|..] == sweep.exited;
    Sim(s1.signal, sweep.vehicles, ps, s1.passed + sweep.passed, f.lastSpawn, s.departed + sweep.exited)
  }

  /** What holds between ticks. */
  predicate Valid(s: Sim) {
    && Signals.Valid(s.signal)
    && (forall i :: 0 <= i < |s.vehicles| ==> V.Valid(s.vehicles[i]))
    && (forall i :: 0 <= i < |s.pedestrians| ==> P.Live(s.pedestrians[i]))
    && s.passed == V.CountCrossed(s.departed)
  }

  lemma TickPreservesValid(s: Sim, now: int, cfg: Config, d: TickDraws)
    requires Valid(s) && ValidTickDraws(d)
    ensures Valid(Tick(s, now, cfg, d))
  {
    var r := Tick(s, now, cfg, d);
    AdvancePreservesValid(s.signal, now, cfg);
    var s1 := UpdatePhase(s, now, cfg, d.walkers);
    assert forall i :: 0 <= i < |s1.pedestrians| ==> P.Live(s1.pedestrians[i]);
    var f := V.Spawn(V.Fleet(s1.vehicles, s1.lastSpawn), now, cfg, d.spawn);
    assert forall i :: 0 <= i < |f.vehicles| ==> V.Valid(f.vehicles[i]);
    assert r.departed == s.departed + r.departed[|s.departed|..];
    V.CountCrossedAppend(s.departed, r.departed[|s.departed|..]);
  }

  /** What can happen between two states: a tick, or a pedestrian button. */
  datatype Event = TickAt(now: int, cfg: Config, draws: TickDraws) | Request(direction: Direction)

  predicate ValidEvent(e: Event) {
    e.TickAt? ==> ValidTickDraws(e.draws)
  }

  /** The button handler: the direction joins the request set. */
  function Apply(s: Sim, e: Event): Sim
    requires ValidEvent(e)
  {
    match e
    case TickAt(now, cfg, draws) => Tick(s, now, cfg, draws)
    case Request(d) => s.(signal := Press(s.signal, d))
  }

  function Run(s: Sim, events: seq<Event>): Sim
    requires forall i :: 0 <= i < |events| ==> ValidEvent(events[i])
    decreases |events|
  {
    if |events| == 0 then s else Run(Apply(s, events[0]), events[1..])
  }

  /** One event keeps the invariant and never lowers the counter. */
  lemma ApplyPreservesValid(s: Sim, e: Event)
    requires Valid(s) && ValidEvent(e)
    ensures Valid(Apply(s, e)) && Apply(s, e).passed >= s.passed
  {
    match e
    case TickAt(now, cfg, draws) => TickPreservesValid(s, now, cfg, draws);
    case Request(d) => PressPreservesValid(s.signal, d);
  }

  /** Over any run of ticks and button presses, the invariant holds, the
      passed counter never falls, and it always equals the number of removed
      vehicles that had crossed. */
  lemma {:induction false} RunPreservesValid(s: Sim, events: seq<Event>)
    requires Valid(s)
    requires forall i :: 0 <= i < |events| ==> ValidEvent(events[i])
    ensures Valid(Run(s, events))
    ensures Run(s, events).passed >= s.passed
    ensures Run(s, events).passed == V.CountCrossed(Run(s, events).departed)
    decreases |events|
  {
    if |events| > 0 {
      var next := Apply(s, events[0]);
      ApplyPreservesValid(s, events[0]);
      assert Run(s, events) == Run(next, events[1..]);
      RunPreservesValid(next, events[1..]);
    }
  }

  /** The starting state satisfies the invariant, so every reachable state
      does. */
  lemma InitValid(now: int)
    ensures Valid(Init(now))
  {
  }
}

=== FILE: pedestrians.dfy ===
/** Pedestrian agents of the intersection simulation (script.js): a batch of
    walkers per requested direction when the walk phase starts, linear
    motion across the road, and removal on arrival. */
module Pedestrians {
  import opened Signals

  /** One walker: how far along its crossing it is (0 to 1), its speed per
      tick, the two ends of its crossing, and its current ground position. */
  datatype Pedestrian = Pedestrian(
    direction: Direction,
    progress: real,
    speed: real,
    startX: real,
    startZ: real,
    endX: real,
    endZ: real,
    x: real,
    z: real)

  /** Distance of either end of a crossing from the centre line. */
  const Kerb: real := 6.0

  /** The draws one batch consumes: one for its size, one speed per walker,
      each uniform in [0, 1). */
  datatype BatchDraw = BatchDraw(size: real, speeds: seq<real>)

  /** `3 + Math.floor(u * 3)`: three to five walkers. */
  function BatchSize(u: real): (n: nat)
    requires 0.0 <= u < 1.0
    ensures 3 <= n <= 5
  {
    3 + (u * 3.0).Floor
  }

  /** `0.01 + u * 0.01`. */
  function WalkerSpeed(u: real): (s: real)
    requires 0.0 <= u < 1.0
    ensures 0.01 <= s < 0.02
  {
    0.01 + u * 0.01
  }

  predicate ValidBatch(b: BatchDraw) {
    && 0.0 <= b.size < 1.0
    && |b.speeds| == BatchSize(b.size)
    && forall i :: 0 <= i < |b.speeds| ==> 0.0 <= b.speeds[i] < 1.0
  }

  /** One batch of draws for each direction that may be requested. */
  datatype PerDirection = PerDirection(north: BatchDraw, south: BatchDraw, east: BatchDraw, west: BatchDraw) {
    function Of(d: Direction): BatchDraw {
      match d
      case North => north
      case South => south
      case East => east
      case West => west
    }
  }

  predicate ValidDraws(draws: PerDirection) {
    ValidBatch(draws.north) && ValidBatch(draws.south) && ValidBatch(draws.east) && ValidBatch(draws.west)
  }

  /** The crossing runs from one kerb to its mirror image across the centre:
      along z for north and south, along x for east and west. */
  predicate Crossing(p: Pedestrian) {
    match p.direction
    case North => p.startZ == Kerb && p.endZ == -p.startZ && p.endX == p.startX
    case South => p.startZ == -Kerb && p.endZ == -p.startZ && p.endX == p.startX
    case East => p.startX == Kerb && p.endX == -p.startX && p.endZ == p.startZ
    case West => p.startX == -Kerb && p.endX == -p.startX && p.endZ == p.startZ
  }

  /** The position is the linear interpolation of the two ends at `progress`. */
  predicate OnSegment(p: Pedestrian) {
    && p.x == p.startX + (p.endX - p.startX) * p.progress
    && p.z == p.startZ + (p.endZ - p.startZ) * p.progress
  }

  /** What holds of every live walker. */
  predicate Live(p: Pedestrian) {
    0.0 <= p.progress < 1.0 && 0.01 <= p.speed < 0.02 && Crossing(p) && OnSegment(p)
  }

  /** The walker's position across the road, at right angles to its crossing. */
  function Lateral(p: Pedestrian): real {
    if p.direction.OnNorthSouthAxis() then p.startX else p.startZ
  }

  /** Walker `i` of a batch of `n`, spread half a unit apart about the centre. */
  function Offset(i: nat, n: nat): real {
    (i as real - n as real / 2.0) * 0.5
  }

  function Walker(d: Direction, i: nat, n: nat, u: real): (p: Pedestrian)
    requires 0.0 <= u < 1.0
    ensures p.direction == d && p.progress == 0.0 && Live(p)
    ensures Lateral(p) == Offset(i, n)
  {
    var offset := Offset(i, n);
    var speed := WalkerSpeed(u);
    match d
    case North => Pedestrian(d, 0.0, speed, offset, Kerb, offset, -Kerb, offset, Kerb)
    case South => Pedestrian(d, 0.0, speed, offset, -Kerb, offset, Kerb, offset, -Kerb)
    case East => Pedestrian(d, 0.0, speed, Kerb, offset, -Kerb, offset, Kerb, offset)
    case West => Pedestrian(d, 0.0, speed, -Kerb, offset, Kerb, offset, -Kerb, offset)
  }

  /** The batch for one requested direction. */
  function Batch(d: Direction, b: BatchDraw): (r: seq<Pedestrian>)
    requires ValidBatch(b)
    ensures |r| == BatchSize(b.size)
    ensures forall i :: 0 <= i < |r| ==> r[i].direction == d && r[i].progress == 0.0 && Live(r[i])
    // no two walkers of a batch share a line: they are strictly spread out
    ensures forall i, j :: 0 <= i < j < |r| ==> Lateral(r[i]) < Lateral(r[j])
  {
    var n := |b.speeds|;
    seq(n, i requires 0 <= i < n => Walker(d, i, n, b.speeds[i]))
  }

  /** The batches for the queued directions, in queue order. */
  function Batches(queue: Queue, draws: PerDirection): (r: seq<Pedestrian>)
    requires ValidDraws(draws)
    ensures 3 * |queue| <= |r| <= 5 * |queue|
    ensures forall i :: 0 <= i < |r| ==> r[i].direction in queue && r[i].progress == 0.0 && Live(r[i])
    decreases |queue|
  {
    if |queue| == 0 then
      []
    else
      var b := Batch(queue[0], draws.Of(queue[0]));
      var rest := Batches(queue[1..], draws);
      assert forall i :: 0 <= i < |rest| ==> rest[i].direction in queue by {
        forall i | 0 <= i < |rest| ensures rest[i].direction in queue {
          var k :| 0 <= k < |queue[1..]| && queue[1..][k] == rest[i].direction;
          assert queue[k + 1] == rest[i].direction;
        }
      }
      b + rest
  }

  /** Batches for a queue split in two are the batches of each part, in
      order. */
  lemma {:induction false} BatchesConcat(q1: Queue, q2: Queue, draws: PerDirection)
    requires ValidDraws(draws)
    ensures Batches(q1 + q2, draws) == Batches(q1, draws) + Batches(q2, draws)
    decreases |q1|
  {
    if |q1| == 0 {
      assert q1 + q2 == q2;
    } else {
      assert (q1 + q2)[0] == q1[0] && (q1 + q2)[1..] == q1[1..] + q2;
      BatchesConcat(q1[1..], q2, draws);
    }
  }

  /** A single queued direction gets exactly its own batch. */
  lemma BatchesSingle(d: Direction, draws: PerDirection)
    requires ValidDraws(draws)
    ensures Batches([d], draws) == Batch(d, draws.Of(d))
  {
  }

  /** `spawnPedestrians`: the new walkers join the end of the list. */
  function Spawn(ps: seq<Pedestrian>, queue: Queue, draws: PerDirection): (r: seq<Pedestrian>)
    requires ValidDraws(draws)
    ensures |ps| + 3 * |queue| <= |r| <= |ps| + 5 * |queue|
    ensures r[..|ps|] == ps
    ensures forall i :: |ps| <= i < |r| ==> r[i].direction in queue && r[i].progress == 0.0 && Live(r[i])
  {
    ps + Batches(queue, draws)
  }

  /** How many walkers of `ps` cross in direction `d`. */
  function CountDir(ps: seq<Pedestrian>, d: Direction): (n: nat)
    ensures n <= |ps|
  {
    if |ps| == 0 then 0 else (if ps[0].direction == d then 1 else 0) + CountDir(ps[1..], d)
  }

  lemma {:induction false} CountDirAppend(a: seq<Pedestrian>, b: seq<Pedestrian>, d: Direction)
    ensures CountDir(a + b, d) == CountDir(a, d) + CountDir(b, d)
    decreases |a|
  {
    if |a| == 0 {
      assert a + b == b;
    } else {
      assert (a + b)[1..] == a[1..] + b;
      CountDirAppend(a[1..], b, d);
    }
  }

  /** A run of walkers that all cross in direction `e` counts in full for
      `e` and not at all for any other direction. */
  lemma {:induction false} CountDirUniform(ps: seq<Pedestrian>, e: Direction, d: Direction)
    requires forall i :: 0 <= i < |ps| ==> ps[i].direction == e
    ensures CountDir(ps, d) == if d == e then |ps| else 0
    decreases |ps|
  {
    if |ps| > 0 {
      CountDirUniform(ps[1..], e, d);
    }
  }

  /** With each direction queued at most once, as the request set ensures,
      a queued direction gets exactly its own batch of walkers and an
      unqueued one gets none. */
  lemma {:induction false} BatchesPerDirection(queue: Queue, draws: PerDirection, d: Direction)
    requires ValidDraws(draws) && NoDuplicates(queue)
    ensures CountDir(Batches(queue, draws), d) == if d in queue then BatchSize(draws.Of(d).size) else 0
    decreases |queue|
  {
    if |queue| > 0 {
      var b := Batch(queue[0], draws.Of(queue[0]));
      var rest := queue[1..];
      assert NoDuplicates(rest) by {
        forall i, j | 0 <= i < j < |rest| ensures rest[i] != rest[j] {
          assert rest[i] == queue[i + 1] && rest[j] == queue[j + 1];
        }
      }
      assert queue[0] !in rest by {
        forall k | 0 <= k < |rest| ensures rest[k] != queue[0] {
          assert rest[k] == queue[k + 1];
        }
      }
      assert d in queue <==> d == queue[0] || d in rest by {
        assert queue == [queue[0]] + rest;
      }
      BatchesPerDirection(rest, draws, d);
      CountDirUniform(b, queue[0], d);
      CountDirAppend(b, Batches(rest, draws), d);
    }
  }

  /** `BatchesPerDirection` for every direction at once. */
  lemma BatchesCount(queue: Queue, draws: PerDirection)
    requires ValidDraws(draws)
    ensures NoDuplicates(queue) ==>
              forall d :: CountDir(Batches(queue, draws), d) == if d in queue then BatchSize(draws.Of(d).size) else 0
  {
    if NoDuplicates(queue) {
      forall d {
        BatchesPerDirection(queue, draws, d);
      }
    }
  }

  /** One tick of one walker: progress by its speed, then move to the
      interpolated point. */
  function Walk(p: Pedestrian): (q: Pedestrian)
    ensures q.progress == p.progress + p.speed
    ensures OnSegment(q)
    ensures q.direction == p.direction && q.speed == p.speed && Crossing(q) == Crossing(p)
  {
    var progress := p.progress + p.speed;
    p.(progress := progress,
       x := p.startX + (p.endX - p.startX) * progress,
       z := p.startZ + (p.endZ - p.startZ) * progress)
  }

  /** One iteration of the `forEach` in `updatePedestrians` at index `k`. */
  function VisitAt(ps: seq<Pedestrian>, k: nat): (r: seq<Pedestrian>)
    requires k < |ps|
    // a walker is removed exactly when its progress reaches 1
    ensures Walk(ps[k]).progress >= 1.0 ==> r == ps[..k] + ps[k + 1..]
    ensures Walk(ps[k]).progress < 1.0 ==> r == ps[k := Walk(ps[k])]
  {
    var q := Walk(ps[k]);
    if q.progress >= 1.0 then ps[..k] + ps[k + 1..] else ps[k := q]
  }

  /** `updatePedestrians` from index `k` on; as with the vehicles, the walker
      that slides into a freed index is skipped for this tick. */
  function SweepFrom(ps: seq<Pedestrian>, k: nat): (r: seq<Pedestrian>)
    decreases |ps| - k
    ensures |r| <= |ps|
    ensures k <= |ps| ==> k <= |r| && r[..k] == ps[..k]
    // every walker left after the sweep is still mid-crossing
    ensures (forall i :: 0 <= i < |ps| ==> Live(ps[i])) ==> forall i :: 0 <= i < |r| ==> Live(r[i])
  {
    if k >= |ps| then ps else SweepFrom(VisitAt(ps, k), k + 1)
  }

  /** A sweep in which no walker arrives removes nobody and moves every
      walker from index `k` on by one tick. */
  lemma {:induction false} SweepWalksAll(ps: seq<Pedestrian>, k: nat)
    requires k <= |ps|
    ensures (forall i :: k <= i < |ps| ==> Walk(ps[i]).progress < 1.0) ==>
              && |SweepFrom(ps, k)| == |ps|
              && (forall i :: 0 <= i < k ==> SweepFrom(ps, k)[i] == ps[i])
              && (forall i :: k <= i < |ps| ==> SweepFrom(ps, k)[i] == Walk(ps[i]))
    decreases |ps| - k
  {
    if k < |ps| && forall i :: k <= i < |ps| ==> Walk(ps[i]).progress < 1.0 {
      var next := ps[k := Walk(ps[k])];
      assert VisitAt(ps, k) == next;
      assert forall i :: k + 1 <= i < |next| ==> next[i] == ps[i];
      SweepWalksAll(next, k + 1);
    }
  }

  /** The number of walkers from index `k` on whose next tick brings them to
      the far kerb. */
  function Arrivals(ps: seq<Pedestrian>, k: nat): nat
    decreases |ps| - k
  {
    if k >= |ps| then 0
    else (if Walk(ps[k]).progress >= 1.0 then 1 else 0) + Arrivals(ps, k + 1)
  }

  /** Arrivals depend only on the walkers from `k` on. */
  lemma {:induction false} ArrivalsSame(ps: seq<Pedestrian>, qs: seq<Pedestrian>, k: nat)
    requires |ps| == |qs|
    requires forall i :: k <= i < |ps| ==> ps[i] == qs[i]
    ensures Arrivals(ps, k) == Arrivals(qs, k)
    decreases |ps| - k
  {
    if k < |ps| {
      ArrivalsSame(ps, qs, k + 1);
    }
  }

  /** Dropping the walker at `j` shifts the later arrivals down by one index. */
  lemma {:induction false} ArrivalsShift(ps: seq<Pedestrian>, j: nat, k: nat)
    requires j <= k < |ps|
    ensures Arrivals(ps[..j] + ps[j + 1..], k) == Arrivals(ps, k + 1)
    decreases |ps| - k
  {
    var qs := ps[..j] + ps[j + 1..];
    if k + 1 < |ps| {
      assert qs[k] == ps[k + 1];
      ArrivalsShift(ps, j, k + 1);
    }
  }

  /** Starting later never counts more arrivals. */
  lemma ArrivalsTail(ps: seq<Pedestrian>, k: nat)
    ensures Arrivals(ps, k + 1) <= Arrivals(ps, k)
  {
  }

  /** A sweep removes no more walkers than arrive: a walker leaves only when
      its own tick brings it to the far kerb, and a skipped walker stays. */
  lemma {:induction false} SweepRemovesOnlyArrivals(ps: seq<Pedestrian>, k: nat)
    requires k <= |ps|
    ensures |ps| - |SweepFrom(ps, k)| <= Arrivals(ps, k)
    decreases |ps| - k
  {
    if k < |ps| {
      var next := VisitAt(ps, k);
      if Walk(ps[k]).progress >= 1.0 {
        if k < |next| {
          ArrivalsShift(ps, k, k);
          ArrivalsTail(next, k);
          SweepRemovesOnlyArrivals(next, k + 1);
        }
      } else {
        ArrivalsSame(ps, next, k + 1);
        SweepRemovesOnlyArrivals(next, k + 1);
      }
    }
  }

  /** `updatePedestrians`: one tick for every walker, with arrivals removed. */
  function UpdatePedestrians(ps: seq<Pedestrian>): (r: seq<Pedestrian>)
    ensures |r| <= |ps|
    // only arriving walkers are removed
    ensures |ps| - |r| <= Arrivals(ps, 0)
    ensures (forall i :: 0 <= i < |ps| ==> Live(ps[i])) ==> forall i :: 0 <= i < |r| ==> Live(r[i])
    // while nobody arrives, nobody leaves and everybody moves on by one tick
    ensures (forall i :: 0 <= i < |ps| ==> Walk(ps[i]).progress < 1.0) ==>
              |r| == |ps| && forall i :: 0 <= i < |r| ==> r[i] == Walk(ps[i])
  {
    SweepWalksAll(ps, 0);
    SweepRemovesOnlyArrivals(ps, 0);
    SweepFrom(ps, 0)
  }

  /** A walker after `n` ticks of its own. */
  function WalkN(p: Pedestrian, n: nat): Pedestrian
    decreases n
  {
    if n == 0 then p else WalkN(Walk(p), n - 1)
  }

  /** Progress grows by exactly the speed on every tick. */
  lemma {:induction false} WalkNProgress(p: Pedestrian, n: nat)
    ensures WalkN(p, n).progress == p.progress + n as real * p.speed
    ensures WalkN(p, n).speed == p.speed
    decreases n
  {
    if n > 0 {
      WalkNProgress(Walk(p), n - 1);
    }
  }

  /** Every walker arrives: after 100 of its own ticks its progress has
      reached 1, so it is removed on or before its hundredth visit. */
  lemma WalkerArrivesWithin100Ticks(p: Pedestrian)
    requires Live(p)
    ensures WalkN(p, 100).progress >= 1.0
  {
    WalkNProgress(p, 100);
  }
}

=== FILE: runner.dfy ===
/** The rules of the endless-runner mode (game.js `RunnerGame`): the three
    lanes, the speed schedule, coin pickups and the hand-over to the ledger
    at game over. */
module Runner {
  import GameState

  datatype PowerUp = Magnet | Invincible | Double | Slow

  /** The rule-relevant part of the runner's state. `playerX` is the
      player's lateral position. */
  datatype Run = Run(
    running: bool,
    paused: bool,
    distance: real,
    speed: real,
    coinsCollected: int,
    lane: int,
    playerX: real)

  datatype Key = ArrowLeft | ArrowRight | Space | OtherKey

  const LaneWidth: real := 2.5
  const StartSpeed: real := 0.1
  const MaxSpeed: real := 0.3

  /** The player is in one of the three lanes and stands at its centre. */
  predicate LaneOk(r: Run) {
    -1 <= r.lane <= 1 && r.playerX == r.lane as real * LaneWidth
  }

  /** `start`: a fresh run in the centre lane. */
  function Start(r: Run): (q: Run)
    ensures q.running && !q.paused && q.distance == 0.0 && q.coinsCollected == 0
    ensures q.lane == 0 && LaneOk(q) && q.speed == StartSpeed
  {
    Run(true, false, 0.0, StartSpeed, 0, 0, 0.0)
  }

  /** `pause` sets the flag and touches nothing else. */
  function Pause(r: Run): (q: Run)
    ensures q.paused && q == r.(paused := q.paused)
  {
    r.(paused := true)
  }

  /** `resume` clears the flag and touches nothing else. */
  function Resume(r: Run): (q: Run)
    ensures !q.paused && q == r.(paused := q.paused)
  {
    r.(paused := false)
  }

  /** Resuming a run that was playing when paused gives it back unchanged. */
  lemma ResumeUndoesPause(r: Run)
    requires !r.paused
    ensures Resume(Pause(r)) == r
  {
  }

  /** The lane part of the key handler, with `movePlayerToLane`. Space starts
      a jump, which does not affect the lane and is not modelled. */
  function KeyDown(r: Run, k: Key): (q: Run)
    ensures LaneOk(r) ==> LaneOk(q)
    ensures q.lane == r.lane - 1 <==> r.running && !r.paused && k == ArrowLeft && r.lane > -1
    ensures q.lane == r.lane + 1 <==> r.running && !r.paused && k == ArrowRight && r.lane < 1
    ensures q.lane != r.lane ==> q.playerX == q.lane as real * LaneWidth
    ensures q.lane == r.lane ==> q == r
    ensures q == r.(lane := q.lane, playerX := q.playerX)
  {
    if r.running && !r.paused && k == ArrowLeft && r.lane > -1 then
      r.(lane := r.lane - 1, playerX := (r.lane - 1) as real * LaneWidth)
    else if r.running && !r.paused && k == ArrowRight && r.lane < 1 then
      r.(lane := r.lane + 1, playerX := (r.lane + 1) as real * LaneWidth)
    else
      r
  }

  /** `Math.min(0.3, 0.1 + distance * 0.0001)`. */
  function SpeedAt(distance: real): (s: real)
    ensures s <= MaxSpeed
    ensures distance >= 0.0 ==> s >= StartSpeed
    // linear growth of 0.0001 per unit of distance up to the cap at 2000
    ensures distance < 2000.0 ==> s == StartSpeed + distance * 0.0001
    ensures s == MaxSpeed <==> distance >= 2000.0
  {
    var s := StartSpeed + distance * 0.0001;
    if MaxSpeed < s then MaxSpeed else s
  }

  /** The speed never drops as the distance grows. */
  lemma SpeedAtMonotone(a: real, b: real)
    requires a <= b
    ensures SpeedAt(a) <= SpeedAt(b)
  {
  }

  /** The speed applied this frame: halved while the slow power-up runs. */
  function CurrentSpeed(speed: real, active: set<PowerUp>): (c: real)
    ensures Slow in active ==> c == speed / 2.0
    ensures Slow !in active ==> c == speed
  {
    if Slow in active then speed * 0.5 else speed
  }

  /** The speed and distance part of one `animate` frame. */
  function Frame(r: Run, active: set<PowerUp>): (q: Run)
    ensures !r.running || r.paused ==> q == r
    ensures r.running && !r.paused ==>
              && q.speed == SpeedAt(r.distance)
              && q.distance == r.distance + CurrentSpeed(q.speed, active) * 10.0
    ensures q == r.(speed := q.speed, distance := q.distance)
  {
    if !r.running || r.paused then
      r
    else
      var speed := SpeedAt(r.distance);
      r.(speed := speed, distance := r.distance + CurrentSpeed(speed, active) * 10.0)
  }

  /** What a run keeps true between frames. */
  predicate Valid(r: Run) {
    LaneOk(r) && r.distance >= 0.0 && StartSpeed <= r.speed <= MaxSpeed && r.coinsCollected >= 0
  }

  function Frames(r: Run, actives: seq<set<PowerUp>>): Run
    decreases |actives|
  {
    if |actives| == 0 then r else Frames(Frame(r, actives[0]), actives[1..])
  }

  /** Over any number of frames and any power-ups, the speed stays between
      0.1 and 0.3, the distance never falls and the lane stays valid. */
  lemma {:induction false} FramesKeepValid(r: Run, actives: seq<set<PowerUp>>)
    requires Valid(r)
    ensures Valid(Frames(r, actives))
    ensures Frames(r, actives).distance >= r.distance
    decreases |actives|
  {
    if |actives| > 0 {
      var q := Frame(r, actives[0]);
      assert Valid(q) && q.distance >= r.distance;
      FramesKeepValid(q, actives[1..]);
    }
  }

  /** A paused run stands still through any number of frames, and the
      arrow keys do not move it. */
  lemma {:induction false} PauseFreezes(r: Run, actives: seq<set<PowerUp>>, k: Key)
    ensures Frames(Pause(r), actives) == Pause(r)
    ensures KeyDown(Pause(r), k) == Pause(r)
    decreases |actives|
  {
    if |actives| > 0 {
      assert Frame(Pause(r), actives[0]) == Pause(r);
      PauseFreezes(r, actives[1..], k);
    }
  }

  /** A coin is worth 2 while the double power-up runs, else 1. */
  function CoinValue(active: set<PowerUp>): (v: int)
    ensures v == 1 || v == 2
    ensures v == 2 <==> Double in active
  {
    if Double in active then 2 else 1
  }

  function CollectCoin(r: Run, active: set<PowerUp>): (q: Run)
    ensures q.coinsCollected == r.coinsCollected + CoinValue(active)
    ensures q == r.(coinsCollected := q.coinsCollected)
  {
    r.(coinsCollected := r.coinsCollected + CoinValue(active))
  }

  /** `gameOver`: the run stops, its coins go to the balance and its
      whole-unit distance is offered as a high score. */
  function GameOver(r: Run, l: GameState.Ledger): (res: (Run, GameState.Ledger))
    ensures !res.0.running
    ensures res.1.coins == l.coins + r.coinsCollected
    ensures res.1.highScore >= l.highScore && res.1.highScore >= r.distance.Floor
    ensures res.1.highScore == l.highScore || res.1.highScore == r.distance.Floor
    ensures res.1.gardenItems == l.gardenItems
  {
    (r.(running := false),
     GameState.UpdateHighScore(GameState.AddCoins(l, r.coinsCollected), r.distance.Floor))
  }
}

=== FILE: signals.dfy ===
/** The signal controller of the intersection simulation (script.js): the
    five-phase cycle driven by elapsed time, the four lights derived from the
    phase, and the pending pedestrian requests. */
module Signals {

  datatype Direction = North | South | East | West {
    /** True for the two directions of the north-south road. */
    predicate OnNorthSouthAxis() {
      this == North || this == South
    }
  }

  datatype Light = Red | Yellow | Green

  datatype Phase = NorthSouth | NsYellow | EastWest | EwYellow | PedestrianWalk

  /** The tunables; durations are milliseconds, speeds are units per tick. */
  datatype Config = Config(
    spawnRate: real,
    greenDuration: real,
    yellowDuration: real,
    pedestrianDuration: real,
    carSpeed: real,
    truckSpeed: real,
    leftTurnProbability: real,
    truckProbability: real)

  /** The values the simulation starts with. */
  const Defaults := Config(2.0, 5000.0, 2000.0, 8000.0, 0.05, 0.03, 0.2, 0.3)

  /** The pending pedestrian requests: a JavaScript `Set`, so its iteration
      order is insertion order and it holds no duplicates. */
  type Queue = seq<Direction>

  predicate NoDuplicates(q: Queue) {
    forall i, j :: 0 <= i < j < |q| ==> q[i] != q[j]
  }

  /** The controller state: current phase, the time it was entered, and the
      pending requests. */
  datatype Controller = Controller(phase: Phase, phaseStart: int, queue: Queue)

  /** The state at start-up: north-south green, entered at `now`, no requests. */
  function Start(now: int): (c: Controller)
    ensures c.phase == NorthSouth && c.phaseStart == now && c.queue == []
  {
    Controller(NorthSouth, now, [])
  }

  /* ---------------------------------------------------------------------- */
  /* Derived lights                                                          */
  /* ---------------------------------------------------------------------- */

  /** The state of the four lights. */
  datatype Lights = Lights(north: Light, south: Light, east: Light, west: Light) {
    function Of(d: Direction): Light {
      match d
      case North => north
      case South => south
      case East => east
      case West => west
    }
  }

  /** The four lights the controller shows in phase `p`. */
  function LightsFor(p: Phase): (ls: Lights)
    ensures ls.north == ls.south && ls.east == ls.west
    ensures !(ls.north == Green && ls.east == Green)
    ensures p == PedestrianWalk ==> ls == Lights(Red, Red, Red, Red)
    ensures ls.north == Green <==> p == NorthSouth
    ensures ls.north == Yellow <==> p == NsYellow
    ensures ls.east == Green <==> p == EastWest
    ensures ls.east == Yellow <==> p == EwYellow
  {
    if p == PedestrianWalk then
      Lights(Red, Red, Red, Red)
    else
      var ns := if p == NorthSouth then Green else if p == NsYellow then Yellow else Red;
      var ew := if p == EastWest then Green else if p == EwYellow then Yellow else Red;
      Lights(ns, ns, ew, ew)
  }

  /** The light a vehicle travelling in direction `d` obeys in phase `p`. */
  function LightOf(p: Phase, d: Direction): Light {
    LightsFor(p).Of(d)
  }

  /** A direction sees green exactly when its own axis has the green phase,
      and no two crossing directions are ever green together. */
  lemma GreenIsAxisExclusive(p: Phase, d: Direction, e: Direction)
    requires d.OnNorthSouthAxis() != e.OnNorthSouthAxis()
    ensures !(LightOf(p, d) == Green && LightOf(p, e) == Green)
    ensures LightOf(p, d) == Green <==>
              (if d.OnNorthSouthAxis() then p == NorthSouth else p == EastWest)
  {
  }

  /* ---------------------------------------------------------------------- */
  /* Phase timing                                                            */
  /* ---------------------------------------------------------------------- */

  /** How long phase `p` lasts before it may be left. */
  function Duration(p: Phase, cfg: Config): real {
    match p
    case NorthSouth => cfg.greenDuration
    case EastWest => cfg.greenDuration
    case NsYellow => cfg.yellowDuration
    case EwYellow => cfg.yellowDuration
    case PedestrianWalk => cfg.pedestrianDuration
  }

  /** The current phase has run strictly longer than its duration. */
  predicate Due(c: Controller, now: int, cfg: Config) {
    (now - c.phaseStart) as real > Duration(c.phase, cfg)
  }

  /** The phase that follows `p` once it is due: a yellow moves to the walk
      phase when any request is pending, otherwise to the other axis's green. */
  function Successor(p: Phase, queue: Queue): Phase {
    match p
    case NorthSouth => NsYellow
    case NsYellow => if |queue| > 0 then PedestrianWalk else EastWest
    case EastWest => EwYellow
    case EwYellow => if |queue| > 0 then PedestrianWalk else NorthSouth
    case PedestrianWalk => NorthSouth
  }

  /** One call of the controller at time `now`. */
  function Advance(c: Controller, now: int, cfg: Config): (r: Controller)
    // nothing moves until the elapsed time strictly exceeds the duration
    ensures !Due(c, now, cfg) ==> r == c
    // a transition always changes the phase and restarts the clock at `now`
    ensures Due(c, now, cfg) ==> r.phase != c.phase && r.phaseStart == now
    // a green only ever gives way to its own axis's yellow
    ensures Due(c, now, cfg) && c.phase == NorthSouth ==> r.phase == NsYellow
    ensures Due(c, now, cfg) && c.phase == EastWest ==> r.phase == EwYellow
    // a yellow goes to the walk phase iff a request is pending, else to the
    // other axis's green; never back to its own green
    ensures Due(c, now, cfg) && c.phase == NsYellow ==>
              (r.phase == PedestrianWalk <==> |c.queue| > 0) &&
              r.phase in {PedestrianWalk, EastWest}
    ensures Due(c, now, cfg) && c.phase == EwYellow ==>
              (r.phase == PedestrianWalk <==> |c.queue| > 0) &&
              r.phase in {PedestrianWalk, NorthSouth}
    // the walk phase always ends in north-south green and empties the queue
    ensures Due(c, now, cfg) && c.phase == PedestrianWalk ==>
              r.phase == NorthSouth && r.queue == []
    // no other transition touches the queue
    ensures r.queue == c.queue || (c.phase == PedestrianWalk && r.queue == [])
    // the walk phase is only ever entered from a yellow with requests pending
    ensures r.phase == PedestrianWalk && c.phase != PedestrianWalk ==>
              c.phase in {NsYellow, EwYellow} && |c.queue| > 0
  {
    if Due(c, now, cfg) then
      var q := if c.phase == PedestrianWalk then [] else c.queue;
      Controller(Successor(c.phase, c.queue), now, q)
    else
      c
  }

  /** A button press: the direction joins the pending set unless it is
      already there; the phase is not touched. */
  function Press(c: Controller, d: Direction): (r: Controller)
    ensures r.phase == c.phase && r.phaseStart == c.phaseStart
    ensures d in r.queue
    ensures forall e :: e in r.queue <==> e in c.queue || e == d
    ensures c.queue <= r.queue
    ensures NoDuplicates(c.queue) ==> NoDuplicates(r.queue)
  {
    if d in c.queue then c else c.(queue := c.queue + [d])
  }

  /** Pressing the same button twice is the same as pressing it once. */
  lemma PressIdempotent(c: Controller, d: Direction)
    ensures Press(Press(c, d), d) == Press(c, d)
  {
  }

  /** What the controller keeps true: the queue is a set, and the walk phase
      only runs while a request is pending. */
  predicate Valid(c: Controller) {
    NoDuplicates(c.queue) && (c.phase == PedestrianWalk ==> |c.queue| > 0)
  }

  lemma AdvancePreservesValid(c: Controller, now: int, cfg: Config)
    requires Valid(c)
    ensures Valid(Advance(c, now, cfg))
  {
  }

  lemma PressPreservesValid(c: Controller, d: Direction)
    requires Valid(c)
    ensures Valid(Press(c, d))
  {
  }

  /** With no requests, four due transitions from north-south green run the
      plain cycle and come back to north-south green. */
  lemma CycleWithoutRequests(c: Controller, t1: int, t2: int, t3: int, t4: int, cfg: Config)
    requires c.phase == NorthSouth && c.queue == []
    requires Due(c, t1, cfg)
    requires Due(Advance(c, t1, cfg), t2, cfg)
    requires Due(Advance(Advance(c, t1, cfg), t2, cfg), t3, cfg)
    requires Due(Advance(Advance(Advance(c, t1, cfg), t2, cfg), t3, cfg), t4, cfg)
    ensures Advance(c, t1, cfg).phase == NsYellow
    ensures Advance(Advance(c, t1, cfg), t2, cfg).phase == EastWest
    ensures Advance(Advance(Advance(c, t1, cfg), t2, cfg), t3, cfg).phase == EwYellow
    ensures Advance(Advance(Advance(Advance(c, t1, cfg), t2, cfg), t3, cfg), t4, cfg)
              == Controller(NorthSouth, t4, [])
  {
  }

  /** With the default timings, north-south green entered at time 0 is still
      showing at exactly 5000 ms and gives way at 5001 ms; the yellow then
      runs from the tick that entered it (not from 5000), so it ends only
      after 7001 ms. */
  lemma DefaultTimingIsStrictAndDrifts()
    ensures Advance(Start(0), 5000, Defaults) == Start(0)
    ensures Advance(Start(0), 5001, Defaults) == Controller(NsYellow, 5001, [])
    ensures Advance(Controller(NsYellow, 5001, []), 7001, Defaults).phase == NsYellow
    ensures Advance(Controller(NsYellow, 5001, []), 7002, Defaults) == Controller(EastWest, 7002, [])
  {
  }

  /** A request made during a green is not served before that green and its
      yellow have run: a green never moves straight to the walk phase. */
  lemma GreenNeverPreemptedByRequest(c: Controller, d: Direction, now: int, cfg: Config)
    requires c.phase in {NorthSouth, EastWest}
    ensures Advance(Press(c, d), now, cfg).phase != PedestrianWalk
  {
  }
}

=== FILE: vehicles.dfy ===
/** Vehicle agents of the intersection simulation (script.js): rate-limited
    spawning, the per-tick stop, left-turn and motion rules, and the sweep
    over the live vehicles that removes those past the exit radius. */
module Vehicles {
  import opened Signals

  /** One vehicle. `x`/`z` are its ground position; the mesh, its height and
      its heading are rendering state and are not modelled. */
  datatype Vehicle = Vehicle(
    direction: Direction,
    isTruck: bool,
    isTurningLeft: bool,
    speed: real,
    waitingForTurn: bool,
    hasCrossed: bool,
    x: real,
    z: real)

  const SpawnDistance: real := 30.0
  const StopLine: real := 6.0
  /** Half-width of the box around the centre where a left turn begins. */
  const TurnBox: real := 2.0
  /** Reach of the opposing-traffic test along the crossing axis. */
  const OpposingReach: real := 10.0
  const ExitRadius: real := 35.0

  function Abs(r: real): real {
    if r < 0.0 then -r else r
  }

  /* ---------------------------------------------------------------------- */
  /* Spawning                                                                */
  /* ---------------------------------------------------------------------- */

  /** The three uniform draws in [0, 1) a spawn consumes. */
  datatype SpawnDraw = SpawnDraw(direction: real, truck: real, turn: real)

  predicate ValidDraw(dr: SpawnDraw) {
    0.0 <= dr.direction < 1.0 && 0.0 <= dr.truck < 1.0 && 0.0 <= dr.turn < 1.0
  }

  /** `directions[Math.floor(u * 4)]` over the list north, south, east, west. */
  function DirectionOfDraw(u: real): (d: Direction)
    requires 0.0 <= u < 1.0
    ensures d == North <==> u < 0.25
    ensures d == South <==> 0.25 <= u < 0.5
    ensures d == East <==> 0.5 <= u < 0.75
    ensures d == West <==> 0.75 <= u
  {
    var i := (u * 4.0).Floor;
    if i == 0 then North else if i == 1 then South else if i == 2 then East else West
  }

  /** The vehicle a spawn creates, before it has moved. */
  function Fresh(d: Direction, isTruck: bool, isTurningLeft: bool, cfg: Config): (v: Vehicle)
    ensures v.direction == d && v.isTruck == isTruck && v.isTurningLeft == isTurningLeft
    ensures !v.hasCrossed && !v.waitingForTurn
    ensures v.speed == if isTruck then cfg.truckSpeed else cfg.carSpeed
    // it starts on its own approach, 30 units out, 2 units left of its heading
    ensures Progress(d, v.x, v.z) == -SpawnDistance && Side(d, v.x, v.z) == 2.0
    ensures match d
            case North => v.z == SpawnDistance && v.x == -2.0
            case South => v.z == -SpawnDistance && v.x == 2.0
            case East => v.x == SpawnDistance && v.z == 2.0
            case West => v.x == -SpawnDistance && v.z == -2.0
  {
    var speed := if isTruck then cfg.truckSpeed else cfg.carSpeed;
    match d
    case North => Vehicle(d, isTruck, isTurningLeft, speed, false, false, -2.0, SpawnDistance)
    case South => Vehicle(d, isTruck, isTurningLeft, speed, false, false, 2.0, -SpawnDistance)
    case East => Vehicle(d, isTruck, isTurningLeft, speed, false, false, SpawnDistance, 2.0)
    case West => Vehicle(d, isTruck, isTurningLeft, speed, false, false, -SpawnDistance, -2.0)
  }

  /** The spawn interval `1000 / spawnRate` has elapsed since the last spawn.
      A rate of 0 makes the interval infinite in JavaScript: never due. */
  predicate SpawnDue(now: int, lastSpawn: int, cfg: Config) {
    cfg.spawnRate != 0.0 && (now - lastSpawn) as real >= 1000.0 / cfg.spawnRate
  }

  /** The live vehicles and the time of the last spawn. */
  datatype Fleet = Fleet(vehicles: seq<Vehicle>, lastSpawn: int)

  /** `spawnVehicle`: at most one new vehicle per spawn interval. */
  function Spawn(f: Fleet, now: int, cfg: Config, dr: SpawnDraw): (r: Fleet)
    requires ValidDraw(dr)
    ensures !SpawnDue(now, f.lastSpawn, cfg) ==> r == f
    ensures SpawnDue(now, f.lastSpawn, cfg) ==>
              && r.lastSpawn == now
              && |r.vehicles| == |f.vehicles| + 1
              && r.vehicles[..|f.vehicles|] == f.vehicles
              && var v := r.vehicles[|f.vehicles|];
                 && !v.hasCrossed && !v.waitingForTurn
                 && (v.isTruck <==> dr.truck < cfg.truckProbability)
                 && (v.isTurningLeft <==> dr.turn < cfg.leftTurnProbability)
                 && v.speed == (if v.isTruck then cfg.truckSpeed else cfg.carSpeed)
                 && v.direction == DirectionOfDraw(dr.direction)
                 // placed on its spawn lane, 30 units back from the centre
                 && v == Fresh(v.direction, v.isTruck, v.isTurningLeft, cfg)
  {
    if !SpawnDue(now, f.lastSpawn, cfg) then
      f
    else
      var v := Fresh(DirectionOfDraw(dr.direction), dr.truck < cfg.truckProbability,
                     dr.turn < cfg.leftTurnProbability, cfg);
      Fleet(f.vehicles + [v], now)
  }

  /* ---------------------------------------------------------------------- */
  /* One vehicle, one tick                                                   */
  /* ---------------------------------------------------------------------- */

  /** The stop test of the source. It is not a stop line: it holds anywhere
      on the approach side, from the spawn point to six units past centre. */
  predicate OnApproach(d: Direction, x: real, z: real) {
    match d
    case North => z > -StopLine
    case South => z < StopLine
    case East => x > -StopLine
    case West => x < StopLine
  }

  /** The vehicle is beyond the centre line along its direction of travel. */
  predicate PastCentre(d: Direction, x: real, z: real) {
    match d
    case North => z < 0.0
    case South => z > 0.0
    case East => x < 0.0
    case West => x > 0.0
  }

  /** An uncrossed vehicle on its approach holds while its light is not green. */
  predicate Held(v: Vehicle, light: Light) {
    !v.hasCrossed && light != Green && OnApproach(v.direction, v.x, v.z)
  }

  /** The source's test for a left-turner having reached the centre: strictly
      inside the box of half-width 2. `closedBox` admits the box's edge as
      well, the corrected test (see `CorrectedBoxTurnerScans`). */
  predicate InTurnBox(v: Vehicle, closedBox: bool) {
    if closedBox then Abs(v.x) <= TurnBox && Abs(v.z) <= TurnBox
    else Abs(v.x) < TurnBox && Abs(v.z) < TurnBox
  }

  /** The source's opposing-traffic test of `o` against the turner `v`. */
  predicate Opposes(v: Vehicle, o: Vehicle) {
    if v.direction.OnNorthSouthAxis() then
      Abs(o.z) < OpposingReach && o.x * v.x < 0.0
    else
      Abs(o.x) < OpposingReach && o.z * v.z < 0.0
  }

  predicate OpposingTraffic(v: Vehicle, others: seq<Vehicle>) {
    exists i :: 0 <= i < |others| && Opposes(v, others[i])
  }

  /** How far a point lies along the heading of direction `d`. */
  function Progress(d: Direction, x: real, z: real): real {
    match d
    case North => -z
    case South => z
    case East => -x
    case West => x
  }

  /** How far a point lies to the left of the heading of direction `d`, in
      right-handed axes with y up. Every spawn lane lies 2 to the left. */
  function Side(d: Direction, x: real, z: real): real {
    match d
    case North => -x
    case South => x
    case East => z
    case West => -z
  }

  /** Straight motion by `speed` along the direction of travel. */
  function Straight(v: Vehicle): (w: Vehicle)
    ensures w == v.(x := w.x, z := w.z)
  {
    match v.direction
    case North => v.(z := v.z - v.speed)
    case South => v.(z := v.z + v.speed)
    case East => v.(x := v.x - v.speed)
    case West => v.(x := v.x + v.speed)
  }

  /** Turning motion: 0.4 of the speed forwards and 0.8 of it sideways. The
      sideways part goes to the heading's left for north and south but to
      its right for east and west. */
  function Turn(v: Vehicle): (w: Vehicle)
    ensures w == v.(x := w.x, z := w.z)
  {
    var t := v.speed * 0.8;
    match v.direction
    case North => v.(x := v.x - t, z := v.z - t * 0.5)
    case South => v.(x := v.x + t, z := v.z + t * 0.5)
    case East => v.(x := v.x - t * 0.5, z := v.z - t)
    case West => v.(x := v.x + t * 0.5, z := v.z + t)
  }

  /** A straight move advances by the speed along the heading and keeps the
      vehicle's offset from it. */
  lemma StraightAlongHeading(v: Vehicle)
    ensures var w := Straight(v);
            && Progress(v.direction, w.x, w.z) == Progress(v.direction, v.x, v.z) + v.speed
            && Side(v.direction, w.x, w.z) == Side(v.direction, v.x, v.z)
  {
  }

  /** A turning move advances by 0.4 of the speed along the heading and
      shifts 0.8 of it sideways: to the left for north and south, to the
      right for east and west. */
  lemma TurnVeers(v: Vehicle)
    ensures var w := Turn(v);
            && Progress(v.direction, w.x, w.z) == Progress(v.direction, v.x, v.z) + 0.4 * v.speed
            && Side(v.direction, w.x, w.z) ==
                 Side(v.direction, v.x, v.z) + (if v.direction.OnNorthSouthAxis() then 0.8 else -0.8) * v.speed
  {
  }

  /** What one tick did to a vehicle: its new state, whether the
      opposing-traffic scan ran, and whether it yielded to that traffic. */
  datatype Step = Step(vehicle: Vehicle, scanned: bool, yielded: bool)

  /** The body of the `updateVehicles` loop for one vehicle, up to the exit
      test, with the centre-box test chosen by `closedBox`. `others` are the
      other live vehicles as they stand at that point. */
  function StepWithBox(v: Vehicle, light: Light, others: seq<Vehicle>, closedBox: bool): (s: Step)
    ensures var w := s.vehicle;
            && w.direction == v.direction && w.isTruck == v.isTruck
            && w.isTurningLeft == v.isTurningLeft && w.speed == v.speed
    // the two flags only ever go from false to true
    ensures s.vehicle.hasCrossed <==> v.hasCrossed || PastCentre(v.direction, v.x, v.z)
    ensures s.vehicle.waitingForTurn <==> v.waitingForTurn || s.scanned
    // the scan runs once a turner reaches the centre box, never again after
    ensures s.scanned <==> !Held(v, light) && v.isTurningLeft && !v.waitingForTurn && InTurnBox(v, closedBox)
    ensures s.yielded <==> s.scanned && OpposingTraffic(v, others)
    // a held or yielding vehicle keeps its position
    ensures Held(v, light) || s.yielded ==> s.vehicle.x == v.x && s.vehicle.z == v.z
    // any other vehicle moves: turning once it has been cleared, else straight
    ensures !Held(v, light) && !s.yielded ==>
              var m := if v.isTurningLeft && s.vehicle.waitingForTurn then Turn(v) else Straight(v);
              s.vehicle.x == m.x && s.vehicle.z == m.z
  {
    var crossed := v.hasCrossed || PastCentre(v.direction, v.x, v.z);
    if Held(v, light) then
      Step(v.(hasCrossed := crossed), false, false)
    else if v.isTurningLeft && !v.waitingForTurn && InTurnBox(v, closedBox) then
      var u := v.(hasCrossed := crossed, waitingForTurn := true);
      if OpposingTraffic(v, others) then Step(u, true, true) else Step(Turn(u), true, false)
    else
      var u := v.(hasCrossed := crossed);
      Step(if u.isTurningLeft && u.waitingForTurn then Turn(u) else Straight(u), false, false)
  }

  /** The loop body as written: the scan needs the vehicle strictly inside
      the box, so it never runs on a spawn lane, which lies on the box's edge. */
  function StepVehicle(v: Vehicle, light: Light, others: seq<Vehicle>): (s: Step)
    ensures s.scanned ==> Abs(v.x) < TurnBox && Abs(v.z) < TurnBox
    ensures Side(v.direction, v.x, v.z) == 2.0 ==> !s.scanned
  {
    StepWithBox(v, light, others, false)
  }

  /** Outside the exit radius (squared distances, so no square root). */
  predicate Far(v: Vehicle) {
    v.x * v.x + v.z * v.z > ExitRadius * ExitRadius
  }

  /** What the model keeps true of every live vehicle. */
  predicate Valid(v: Vehicle) {
    v.waitingForTurn ==> v.isTurningLeft
  }

  /* ---------------------------------------------------------------------- */
  /* The sweep over the live vehicles                                        */
  /* ---------------------------------------------------------------------- */

  /** The vehicles other than the one at index `k`: the `other === vehicle`
      exclusion of the scan, by position instead of object identity. */
  function Others(vs: seq<Vehicle>, k: nat): (r: seq<Vehicle>)
    requires k < |vs|
    ensures |r| == |vs| - 1
    ensures forall i :: 0 <= i < k ==> r[i] == vs[i]
    ensures forall i :: k <= i < |r| ==> r[i] == vs[i + 1]
  {
    vs[..k] + vs[k + 1..]
  }

  function CountCrossed(vs: seq<Vehicle>): nat {
    if |vs| == 0 then 0 else (if vs[0].hasCrossed then 1 else 0) + CountCrossed(vs[1..])
  }

  lemma {:induction false} CountCrossedAppend(a: seq<Vehicle>, b: seq<Vehicle>)
    ensures CountCrossed(a + b) == CountCrossed(a) + CountCrossed(b)
  {
    if |a| == 0 {
      assert a + b == b;
    } else {
      assert (a + b)[1..] == a[1..] + b;
      CountCrossedAppend(a[1..], b);
    }
  }

  /** The result of visiting one index: the array after the visit, and the
      vehicle removed by it, if any. */
  datatype Visit = Visit(vehicles: seq<Vehicle>, removed: seq<Vehicle>)

  /** One iteration of the `forEach` in `updateVehicles`, at index `k` of the
      array as it currently stands. */
  function VisitAt(phase: Phase, vs: seq<Vehicle>, k: nat): (r: Visit)
    requires k < |vs|
    ensures var s := StepVehicle(vs[k], LightOf(phase, vs[k].direction), Others(vs, k));
            // a vehicle is removed exactly when it ends its move outside the
            // exit radius; a yielding vehicle skips the exit test
            && (|r.removed| == 1 <==> !s.yielded && Far(s.vehicle))
            && (|r.removed| == 1 ==> r.removed[0] == s.vehicle && r.vehicles == Others(vs, k))
            && (|r.removed| != 1 ==> r.removed == [] && r.vehicles == vs[k := s.vehicle])
  {
    var s := StepVehicle(vs[k], LightOf(phase, vs[k].direction), Others(vs, k));
    if !s.yielded && Far(s.vehicle) then
      Visit(vs[..k] + vs[k + 1..], [s.vehicle])
    else
      Visit(vs[k := s.vehicle], [])
  }

  /** A visit keeps the vehicles before index `k` and loses no vehicle: the
      ones not left in the array are the ones it removed, all far out. */
  lemma VisitKeepsPrefix(phase: Phase, vs: seq<Vehicle>, k: nat)
    requires k < |vs|
    ensures |VisitAt(phase, vs, k).vehicles| + |VisitAt(phase, vs, k).removed| == |vs|
    ensures k <= |VisitAt(phase, vs, k).vehicles|
    ensures forall i :: 0 <= i < k ==> VisitAt(phase, vs, k).vehicles[i] == vs[i]
    ensures forall i :: 0 <= i < |VisitAt(phase, vs, k).removed| ==> Far(VisitAt(phase, vs, k).removed[i])
  {
  }

  /** A visit keeps every vehicle valid. */
  lemma VisitKeepsValid(phase: Phase, vs: seq<Vehicle>, k: nat)
    requires k < |vs|
    ensures (forall i :: 0 <= i < |vs| ==> Valid(vs[i])) ==>
              && (forall i :: 0 <= i < |VisitAt(phase, vs, k).vehicles| ==> Valid(VisitAt(phase, vs, k).vehicles[i]))
              && (forall i :: 0 <= i < |VisitAt(phase, vs, k).removed| ==> Valid(VisitAt(phase, vs, k).removed[i]))
  {
  }

  /** The outcome of a whole sweep: survivors, the removed vehicles in order,
      and how much the passed-vehicles counter rose. */
  datatype Sweep = Sweep(vehicles: seq<Vehicle>, exited: seq<Vehicle>, passed: nat)

  /** `updateVehicles` from index `k` on. JavaScript's `forEach` keeps its own
      index while `splice` shortens the array underneath it, so after a
      removal the vehicle that slides into the freed index is not visited in
      this tick. */
  function SweepFrom(phase: Phase, vs: seq<Vehicle>, k: nat): Sweep
    decreases |vs| - k
  {
    if k >= |vs| then
      Sweep(vs, [], 0)
    else
      var visit := VisitAt(phase, vs, k);
      var rest := SweepFrom(phase, visit.vehicles, k + 1);
      var bump := if |visit.removed| == 1 && visit.removed[0].hasCrossed then 1 else 0;
      Sweep(rest.vehicles, visit.removed + rest.exited, rest.passed + bump)
  }

  /** A sweep from index `k` loses no vehicle and leaves the ones before
      `k` alone. */
  lemma {:induction false} SweepKeepsPrefix(phase: Phase, vs: seq<Vehicle>, k: nat)
    ensures |SweepFrom(phase, vs, k).vehicles| + |SweepFrom(phase, vs, k).exited| == |vs|
    ensures k <= |vs| ==> k <= |SweepFrom(phase, vs, k).vehicles|
    ensures forall i :: 0 <= i < k && i < |vs| ==> SweepFrom(phase, vs, k).vehicles[i] == vs[i]
    decreases |vs| - k
  {
    if k < |vs| {
      var visit := VisitAt(phase, vs, k);
      VisitKeepsPrefix(phase, vs, k);
      SweepKeepsPrefix(phase, visit.vehicles, k + 1);
      var rest := SweepFrom(phase, visit.vehicles, k + 1);
      assert SweepFrom(phase, vs, k).vehicles == rest.vehicles;
    }
  }

  /** Every vehicle a sweep removes was far out, and the counter rises by
      one per removed vehicle that had crossed. */
  lemma {:induction false} SweepCountsExits(phase: Phase, vs: seq<Vehicle>, k: nat)
    ensures forall i :: 0 <= i < |SweepFrom(phase, vs, k).exited| ==> Far(SweepFrom(phase, vs, k).exited[i])
    ensures SweepFrom(phase, vs, k).passed == CountCrossed(SweepFrom(phase, vs, k).exited)
    decreases |vs| - k
  {
    if k < |vs| {
      var visit := VisitAt(phase, vs, k);
      VisitKeepsPrefix(phase, vs, k);
      SweepCountsExits(phase, visit.vehicles, k + 1);
      var rest := SweepFrom(phase, visit.vehicles, k + 1);
      assert visit.removed == [] || visit.removed == [visit.removed[0]];
      CountCrossedAppend(visit.removed, rest.exited);
    }
  }

  /** A sweep keeps every vehicle valid, removed or not. */
  lemma {:induction false} SweepKeepsValid(phase: Phase, vs: seq<Vehicle>, k: nat)
    requires forall i :: 0 <= i < |vs| ==> Valid(vs[i])
    ensures forall i :: 0 <= i < |SweepFrom(phase, vs, k).vehicles| ==> Valid(SweepFrom(phase, vs, k).vehicles[i])
    ensures forall i :: 0 <= i < |SweepFrom(phase, vs, k).exited| ==> Valid(SweepFrom(phase, vs, k).exited[i])
    decreases |vs| - k
  {
    if k < |vs| {
      var visit := VisitAt(phase, vs, k);
      VisitKeepsValid(phase, vs, k);
      SweepKeepsValid(phase, visit.vehicles, k + 1);
      var rest := SweepFrom(phase, visit.vehicles, k + 1);
      var exited := visit.removed + rest.exited;
      assert SweepFrom(phase, vs, k) == Sweep(rest.vehicles, exited, SweepFrom(phase, vs, k).passed);
      forall i | 0 <= i < |exited|
        ensures Valid(exited[i])
      {
        if i >= |visit.removed| {
          assert exited[i] == rest.exited[i - |visit.removed|];
        } else {
          assert exited[i] == visit.removed[i];
        }
      }
    }
  }

  /** `updateVehicles`: one sweep over the whole array. */
  function UpdateVehicles(phase: Phase, vs: seq<Vehicle>): (r: Sweep)
    ensures |r.vehicles| + |r.exited| == |vs|
    ensures forall i :: 0 <= i < |r.exited| ==> Far(r.exited[i])
    // the counter rises by one for each removed vehicle that had crossed
    ensures r.passed == CountCrossed(r.exited)
    ensures (forall i :: 0 <= i < |vs| ==> Valid(vs[i])) ==>
              && (forall i :: 0 <= i < |r.vehicles| ==> Valid(r.vehicles[i]))
              && (forall i :: 0 <= i < |r.exited| ==> Valid(r.exited[i]))
  {
    SweepKeepsPrefix(phase, vs, 0);
    SweepCountsExits(phase, vs, 0);
    if forall i :: 0 <= i < |vs| ==> Valid(vs[i]) then
      SweepKeepsValid(phase, vs, 0);
      SweepFrom(phase, vs, 0)
    else
      SweepFrom(phase, vs, 0)
  }

  /** The skipped visit: when the vehicle at index `k` is removed, the one
      behind it keeps its place in the array but is left untouched this tick. */
  lemma RemovalSkipsNext(phase: Phase, vs: seq<Vehicle>, k: nat)
    requires k + 1 < |vs|
    requires |VisitAt(phase, vs, k).removed| == 1
    ensures k < |SweepFrom(phase, vs, k).vehicles| && SweepFrom(phase, vs, k).vehicles[k] == vs[k + 1]
  {
    var visit := VisitAt(phase, vs, k);
    VisitKeepsPrefix(phase, vs, k);
    SweepKeepsPrefix(phase, visit.vehicles, k + 1);
    var rest := SweepFrom(phase, visit.vehicles, k + 1);
    assert rest.vehicles[k] == visit.vehicles[k];
  }

  /** A concrete instance: a crossed vehicle already far out at the head of
      the array is removed, and the equally far vehicle behind it is neither
      moved nor removed in that tick. */
  lemma SkippedVehicleStaysForATick()
    ensures var a := Vehicle(North, false, false, 0.05, false, true, -2.0, -40.0);
            var b := Vehicle(North, false, false, 0.05, false, true, -2.0, -39.0);
            var r := UpdateVehicles(NorthSouth, [a, b]);
            r.vehicles == [b] && Far(b) && |r.exited| == 1 && r.passed == 1
  {
    var a := Vehicle(North, false, false, 0.05, false, true, -2.0, -40.0);
    var b := Vehicle(North, false, false, 0.05, false, true, -2.0, -39.0);
    assert StepVehicle(a, Green, [b]).vehicle == a.(z := -40.05);
    assert VisitAt(NorthSouth, [a, b], 0).vehicles == [b];
    assert SweepFrom(NorthSouth, [b], 1) == Sweep([b], [], 0);
  }

  /* ---------------------------------------------------------------------- */
  /* One vehicle over many ticks                                             */
  /* ---------------------------------------------------------------------- */

  /** What one tick shows a vehicle: either it is visited, with its light and
      the other vehicles, or it is skipped after a removal ahead of it. */
  datatype Tick = Visited(light: Light, others: seq<Vehicle>) | Skipped

  /** A vehicle's state after a run of ticks, and how many times the
      opposing-traffic scan ran for it, with the centre-box test chosen by
      `closedBox` (false is the source's test). */
  function Drive(v: Vehicle, ticks: seq<Tick>, closedBox: bool): (Vehicle, nat)
    decreases |ticks|
  {
    if |ticks| == 0 then
      (v, 0)
    else
      match ticks[0]
      case Skipped => Drive(v, ticks[1..], closedBox)
      case Visited(light, others) =>
        var s := StepWithBox(v, light, others, closedBox);
        var rest := Drive(s.vehicle, ticks[1..], closedBox);
        (rest.0, rest.1 + if s.scanned then 1 else 0)
  }

  /** Driving through two runs of ticks is driving through the first and
      then the second. */
  lemma {:induction false} DriveConcat(v: Vehicle, a: seq<Tick>, b: seq<Tick>, closedBox: bool)
    ensures var first := Drive(v, a, closedBox);
            var second := Drive(first.0, b, closedBox);
            Drive(v, a + b, closedBox) == (second.0, first.1 + second.1)
    decreases |a|
  {
    if |a| > 0 {
      assert (a + b)[0] == a[0];
      assert (a + b)[1..] == a[1..] + b;
      match a[0]
      case Skipped => DriveConcat(v, a[1..], b, closedBox);
      case Visited(light, others) =>
        DriveConcat(StepWithBox(v, light, others, closedBox).vehicle, a[1..], b, closedBox);
    } else {
      assert a + b == b;
    }
  }

  /** Once a vehicle waits for its turn it never scans again, and both flags
      stay set through any run of ticks. */
  lemma {:induction false} FlagsStaySet(v: Vehicle, ticks: seq<Tick>, closedBox: bool)
    ensures v.waitingForTurn ==> Drive(v, ticks, closedBox).1 == 0 && Drive(v, ticks, closedBox).0.waitingForTurn
    ensures v.hasCrossed ==> Drive(v, ticks, closedBox).0.hasCrossed
    decreases |ticks|
  {
    if |ticks| > 0 {
      match ticks[0]
      case Skipped => FlagsStaySet(v, ticks[1..], closedBox);
      case Visited(light, others) =>
        FlagsStaySet(StepWithBox(v, light, others, closedBox).vehicle, ticks[1..], closedBox);
    }
  }

  /** The opposing-traffic scan runs at most once in a vehicle's life. */
  lemma {:induction false} ScanAtMostOnce(v: Vehicle, ticks: seq<Tick>, closedBox: bool)
    ensures Drive(v, ticks, closedBox).1 <= 1
    decreases |ticks|
  {
    if |ticks| > 0 {
      match ticks[0]
      case Skipped => ScanAtMostOnce(v, ticks[1..], closedBox);
      case Visited(light, others) =>
        var s := StepWithBox(v, light, others, closedBox);
        if s.scanned {
          FlagsStaySet(s.vehicle, ticks[1..], closedBox);
        } else {
          ScanAtMostOnce(s.vehicle, ticks[1..], closedBox);
        }
    }
  }

  /** The left-turn yield lasts a single tick: on its next visit the vehicle
      neither scans nor yields again, whatever traffic there is, and unless
      its light holds it, it starts turning. */
  lemma YieldLastsOneTick(v: Vehicle, l1: Light, o1: seq<Vehicle>, l2: Light, o2: seq<Vehicle>, closedBox: bool)
    requires StepWithBox(v, l1, o1, closedBox).yielded
    ensures var w := StepWithBox(v, l1, o1, closedBox).vehicle;
            var s := StepWithBox(w, l2, o2, closedBox);
            && !s.scanned && !s.yielded
            && (Held(w, l2) || (s.vehicle.x == Turn(w).x && s.vehicle.z == Turn(w).z))
  {
  }

  /** A fresh vehicle whose light is not green does not move: the stop test
      already holds at the spawn point, 24 units before the nominal line. */
  lemma FreshVehicleHeldBeforeGreen(d: Direction, isTruck: bool, isTurningLeft: bool,
                                    cfg: Config, light: Light, others: seq<Vehicle>)
    requires light != Green
    ensures var v := Fresh(d, isTruck, isTurningLeft, cfg);
            var s := StepVehicle(v, light, others);
            s.vehicle.x == v.x && s.vehicle.z == v.z
  {
  }

  /** A vehicle on the lane line, 2 units left of its heading, that is not
      yet turning, never scans under the source's test: it stays on that
      line, which the open centre box never reaches, so it never turns. */
  lemma {:induction false} LaneLineNeverScans(v: Vehicle, ticks: seq<Tick>)
    requires Side(v.direction, v.x, v.z) == 2.0 && !v.waitingForTurn
    ensures Drive(v, ticks, false).1 == 0
    ensures !Drive(v, ticks, false).0.waitingForTurn
    ensures Side(v.direction, Drive(v, ticks, false).0.x, Drive(v, ticks, false).0.z) == 2.0
    decreases |ticks|
  {
    if |ticks| > 0 {
      match ticks[0]
      case Skipped => LaneLineNeverScans(v, ticks[1..]);
      case Visited(light, others) =>
        var s := StepVehicle(v, light, others);
        assert !s.scanned;
        LaneLineNeverScans(s.vehicle, ticks[1..]);
    }
  }

  /** Every spawned vehicle, left-turners included, goes straight through
      the junction under the source's test: the scan never runs for it and
      it never starts its turn, whatever the lights and traffic. */
  lemma SpawnedTurnersNeverTurn(d: Direction, isTruck: bool, isTurningLeft: bool,
                                cfg: Config, ticks: seq<Tick>)
    ensures Drive(Fresh(d, isTruck, isTurningLeft, cfg), ticks, false).1 == 0
    ensures !Drive(Fresh(d, isTruck, isTurningLeft, cfg), ticks, false).0.waitingForTurn
  {
    LaneLineNeverScans(Fresh(d, isTruck, isTurningLeft, cfg), ticks);
  }

  /** The vehicle `spawnVehicle` appends is one of those: whatever the draw,
      it never scans for opposing traffic and never waits to turn. */
  lemma SpawnNeverTurns(f: Fleet, now: int, cfg: Config, dr: SpawnDraw, ticks: seq<Tick>)
    requires ValidDraw(dr)
    ensures SpawnDue(now, f.lastSpawn, cfg) ==>
              var v := Spawn(f, now, cfg, dr).vehicles[|f.vehicles|];
              Drive(v, ticks, false).1 == 0 && !Drive(v, ticks, false).0.waitingForTurn
  {
    if SpawnDue(now, f.lastSpawn, cfg) {
      var v := Spawn(f, now, cfg, dr).vehicles[|f.vehicles|];
      SpawnedTurnersNeverTurn(v.direction, v.isTruck, v.isTurningLeft, cfg, ticks);
    }
  }

  /** Ticks that all see a green light and no other traffic. */
  function Greens(n: nat): (ts: seq<Tick>)
    ensures |ts| == n && forall i :: 0 <= i < n ==> ts[i] == Visited(Green, [])
  {
    seq(n, _ => Visited(Green, []))
  }

  /** A straight-going vehicle on a clear green advances by its speed on
      every tick. */
  lemma {:induction false} StraightRun(v: Vehicle, n: nat, closedBox: bool)
    requires !v.isTurningLeft && v.direction == North
    ensures Drive(v, Greens(n), closedBox).0.x == v.x
    ensures Drive(v, Greens(n), closedBox).0.z == v.z - n as real * v.speed
    decreases n
  {
    if n > 0 {
      var s := StepWithBox(v, Green, [], closedBox);
      assert Greens(n)[1..] == Greens(n - 1);
      StraightRun(s.vehicle, n - 1, closedBox);
    }
  }

  /** One tick of a clear green run for a northbound vehicle not yet
      turning and still short of the centre box: a straight move. */
  lemma ClearGreenStep(v: Vehicle, n: nat, closedBox: bool)
    requires n > 0 && v.direction == North && !v.waitingForTurn && v.z > TurnBox
    ensures Drive(v, Greens(n), closedBox) == Drive(v.(z := v.z - v.speed), Greens(n - 1), closedBox)
  {
    assert Greens(n)[1..] == Greens(n - 1);
    assert StepWithBox(v, Green, [], closedBox) == Step(v.(z := v.z - v.speed), false, false);
  }

  /** The distance covered by `n` moves of `speed`, summed move by move. */
  function Travelled(n: nat, speed: real): (t: real)
    ensures speed >= 0.0 ==> t >= 0.0
  {
    if n == 0 then 0.0 else Travelled(n - 1, speed) + speed
  }

  /** The summed distance is the product of moves and speed. */
  lemma {:induction false} TravelledIsProduct(n: nat, speed: real)
    ensures Travelled(n, speed) == n as real * speed
  {
    if n > 0 {
      TravelledIsProduct(n - 1, speed);
      assert n as real * speed == (n - 1) as real * speed + speed;
    }
  }

  /** A northbound vehicle not yet turning, on a clear green, that ends a
      run of moves no nearer the centre than the box's edge, moves straight
      by its speed on each tick and changes nothing else. */
  lemma {:induction false} ApproachRun(v: Vehicle, n: nat, closedBox: bool)
    requires v.direction == North && !v.waitingForTurn && v.speed > 0.0
    requires v.z - Travelled(n, v.speed) >= TurnBox
    ensures Drive(v, Greens(n), closedBox).0 == v.(z := Drive(v, Greens(n), closedBox).0.z)
    ensures Drive(v, Greens(n), closedBox).0.z == v.z - Travelled(n, v.speed)
    ensures Drive(v, Greens(n), closedBox).1 == 0
    decreases n
  {
    if n > 0 {
      ClearGreenStep(v, n, closedBox);
      ApproachRun(v.(z := v.z - v.speed), n - 1, closedBox);
    }
  }

  /** With the box's edge admitted, a northbound left-turner on its lane
      line that reaches the edge at z = 2 on a clear green scans on its next
      visit and starts its turn; under the source's test it does neither. */
  lemma CorrectedBoxTurnerScans(v: Vehicle, n: nat)
    requires v.direction == North && v.isTurningLeft && !v.waitingForTurn && v.speed > 0.0
    requires v.x == -2.0 && v.z - Travelled(n, v.speed) == TurnBox
    ensures Drive(v, Greens(n + 1), true).1 == 1
    ensures Drive(v, Greens(n + 1), true).0.waitingForTurn
    ensures Drive(v, Greens(n + 1), false).1 == 0
  {
    ApproachRun(v, n, true);
    var w := Drive(v, Greens(n), true).0;
    assert Greens(n + 1) == Greens(n) + Greens(1);
    DriveConcat(v, Greens(n), Greens(1), true);
    assert Greens(1)[1..] == [];
    assert StepWithBox(w, Green, [], true).scanned;
    LaneLineNeverScans(v, Greens(n + 1));
  }

  /** The default northbound left-turner reaches the box's edge after 560
      moves. */
  lemma FreshTurnerReachesBoxEdge()
    ensures var v := Fresh(North, false, true, Defaults);
            v.x == -2.0 && v.z - Travelled(560, v.speed) == TurnBox
  {
    TravelledIsProduct(560, 0.05);
  }

  /** A default car spawned heading north, never stopped, ends its 1299th
      move outside the exit radius and not its 1298th: the north lane runs
      at x = -2, so it leaves at z < -34.94 rather than after 65 units. */
  lemma NorthCarExitsOnTick1299()
    ensures !Far(Drive(Fresh(North, false, false, Defaults), Greens(1298), false).0)
    ensures Far(Drive(Fresh(North, false, false, Defaults), Greens(1299), false).0)
  {
    var v := Fresh(North, false, false, Defaults);
    assert v.x == -2.0 && v.z == 30.0 && v.speed == 0.05;
    StraightRun(v, 1298, false);
    var a := Drive(v, Greens(1298), false).0;
    assert a.x == -2.0 && a.z == -34.9;
    StraightRun(v, 1299, false);
    var b := Drive(v, Greens(1299), false).0;
    assert b.x == -2.0 && b.z == -34.95;
  }
}

=== FILE: wrappers.dfy ===
/** The optional-value datatype shared by the lookup and selection code. */
module Wrappers {

  /** Some value, or nothing (JavaScript's `null`/`undefined`). */
  datatype Option<+T> = None | Some(value: T)
}
